=== FILE: README.md ===
# Firecracker device bus and GIC save/restore, modelled in Dafny

This project models three pieces of Firecracker's sequential logic, plus the
device contract they depend on.

- **The MMIO/PIO `Bus`** (`vmm/src/vmm_config/device_config.rs`). It is an
  ordered map from half-open address ranges `[base, base + len)` to devices.
  `BusRange` keys compare by `base` alone.
  - `insert` rejects three cases: a zero length, a base inside an existing
    range, and an existing range that starts inside the new one. The code
    computes the new range's last byte as `base + len - 1` in `u64`; see
    "## Findings" for what that does at the top of the address space.
  - `first_before` / `get_device` find the greatest base `<= addr` and check
    the offset against that range's length.
  - `read` / `write` forward to the owning device, or report `false`.
- **The device capability traits** (`fc_util/src/device_config.rs`). These are
  `BusDevice`, `RawIOHandler`, `FirecrackerDevice` and `DeviceType`. A device
  is a record of optional operations: `None` stands for the trait's default
  body, `Some(f)` for a device's own implementation.
- **GICv2 CPU-interface registers** (`gicv2/regs/icc_regs.rs`). These are the
  four-register table, the bit packing of `(cpuid, offset)` into a KVM
  device-attribute id, and `get_icc_regs` / `set_icc_regs`.
- **GIC save/restore** (`gicv2/regs/mod.rs`, `gicv3/regs/mod.rs`).
  - `save_state` reads every vCPU's registers and then the distributor. On
    GICv3 it first flushes the pending tables, and each vCPU's redistributor
    comes before its CPU interface.
  - `restore_state` writes the distributor, checks the vCPU count, then
    writes every vCPU.

The hypervisor side is modelled as an abstract attribute store (`KvmDevice`):

- a map from `(group, attr)` to a value or a failure code;
- a code for attributes it does not know;
- a log of every get, set and control call made.

`RunTrace` is the reference semantics of a flat list of calls: perform them in
order and stop at the first failure. Every GIC operation is proved to
*mirror* the run of an explicit trace. "Mirrors" means:

- the same store and log;
- success exactly when the run succeeds;
- otherwise the failing call's `DeviceAttribute(code, isWrite, group)`.

Call order, first-error propagation and "nothing else was touched" follow from
that. The save/restore round trips are proved on top of it.

The generic register engine `VgicRegEngine` (in `aarch64/gic/regs`) is not
modelled from its code; `RegEngine` reconstructs it as follows:

- a register `(offset, size)` is moved in chunks, at offsets stepping by the
  chunk width below `offset + size`;
- getting a list keeps its order;
- setting pairs descriptors with values position by position.

The register lists `dist_regs`, `redist_regs` and the GICv3 `icc_regs` are not
part of this model either. They enter as parameters, each fixed to its KVM
attribute group. The group numbers follow the Linux arm64 KVM API:
`DIST_REGS = 1`, `CPU_REGS = 2`, `CTRL = 4`, `REDIST_REGS = 5` and
`CPU_SYSREGS = 6`. The pending-table flush is attribute
`SAVE_PENDING_TABLES = 3` of group `CTRL`.

Modules, one per file: `Wrappers`, `MachineWords`, `DeviceTraits`,
`DeviceBus`, `KvmDevice`, `RegEngine`, `IccRegs`, `Gicv2`, `Gicv3`.

Two details of the code that the model follows exactly:

- **Save order.** Both `save_state` functions read the per-vCPU registers
  *before* the distributor (gicv2 `mod.rs:41-48`, gicv3 `mod.rs:35-43`). The
  model and its traces use that order.
- **Third field of `DeviceAttribute`.** It is the attribute *group*. The
  save/restore tests expect `DeviceAttribute(Error(22), false, 2)` and
  `(…, 5)` (gicv2 `mod.rs:89`, gicv3 `mod.rs:82`), which matches. The test in
  `icc_regs.rs` expects group 6 instead (lines 104-114); the code passes
  `KVM_DEV_ARM_VGIC_GRP_CPU_REGS` = 2 (`icc_regs.rs:29`), and the model
  follows the code.

## Model

| member | source | states |
|---|---|---|
| DeviceBus.BusRangeOrderIsByBase | vmm/src/vmm_config/device_config.rs:61-79 | Two ranges are equal iff their bases are. They are ordered as their bases are. Changing either length never changes the comparison, and comparison is antisymmetric. |
| DeviceBus.FirstBefore | vmm/src/vmm_config/device_config.rs:100-108 | `None` iff every stored base exceeds `addr`. Otherwise the result is a stored entry whose base is `<= addr` and is the greatest such base. |
| DeviceBus.GetDevice | vmm/src/vmm_config/device_config.rs:110-119 | A result `(offset, dev)` comes from a stored entry whose range contains `addr`, with `offset = addr - base`. |
| DeviceBus.OwnerIsUnique | vmm/src/vmm_config/device_config.rs:83-86 | On a bus whose ranges are disjoint, at most one stored range contains a given address. |
| DeviceBus.OwnerFindsContainingRange | vmm/src/vmm_config/device_config.rs:100-119 | On a valid bus, the predecessor search finds exactly the entry whose range contains `addr`. |
| DeviceBus.GetDeviceFindsOwner | vmm/src/vmm_config/device_config.rs:110-119 | On a valid bus, `get_device(addr)` is `Some` iff some stored range contains `addr`. It is then `(addr - base, dev)` of that range. |
| DeviceBus.GetDeviceAtRangeEdges | vmm/src/vmm_config/device_config.rs:112-116 | A stored range answers at `base` with offset 0 and at `base + len - 1` with offset `len - 1`. At `base + len` the answer is `None` unless another range starts there. |
| DeviceBus.MapInsert | vmm/src/vmm_config/device_config.rs:149-151 | `BTreeMap::insert` keyed by base: a new base is spliced in at its ordered place. An existing base keeps its key, gets the new device, and the old device is returned. |
| DeviceBus.InsertAsWritten | vmm/src/vmm_config/device_config.rs:122-154 | The code as written, with release-build wrapping of `base + len - 1`. A successful insert has a positive length, and the new bus is the old one with exactly `(base, len, dev)` spliced in at its ordered position. |
| DeviceBus.InsertAsWrittenAcceptsOverlap | vmm/src/vmm_config/device_config.rs:141 | With `[2^64 - 8, 2^64)` stored, the code accepts `insert(2^64 - 16, 32)`: the range overlaps the stored one and the bus is no longer valid. The corrected `Insert` refuses it. |
| DeviceBus.Insert | vmm/src/vmm_config/device_config.rs:122-154 | The corrected insert: a successful insert has a positive length and ends inside the 64-bit space. The new bus is the old one with exactly `(base, len, dev)` spliced in at its ordered position. |
| DeviceBus.InsertAsWrittenAgrees | vmm/src/vmm_config/device_config.rs:141 | Whenever `base + len <= 2^64` the code and the corrected insert give the same bus and the same result. |
| DeviceBus.InsertZeroLength | vmm/src/vmm_config/device_config.rs:128-130 | A zero length gives `Overlap` for every base, with the bus unchanged. |
| DeviceBus.InsertRejectsBaseInsideRange | vmm/src/vmm_config/device_config.rs:133-135 | A base inside a stored range gives `Overlap`, with the bus unchanged. |
| DeviceBus.InsertRejectsRangeStartingInside | vmm/src/vmm_config/device_config.rs:141-147 | Under the corrected `Insert`, a stored range starting in `[base, base + len - 1]` gives `Overlap`, with the bus unchanged. The bus need not be valid. |
| DeviceBus.InsertAsWrittenRejectsRangeStartingInside | vmm/src/vmm_config/device_config.rs:141-147 | The code as written gives the same refusal whenever `base + len <= 2^64`; past that the wrap can let the range through (see "## Findings"). |
| DeviceBus.InsertRejectsDuplicateBase | vmm/src/vmm_config/device_config.rs:133-135 | Inserting at a stored base is rejected with the bus unchanged. |
| DeviceBus.InsertKeyClashUnreachable | vmm/src/vmm_config/device_config.rs:149-151 | On a valid bus, once `get_device(base)` is `None` no stored entry has that base. So the map's "key already present" branch cannot be reached. |
| DeviceBus.InsertSucceedsIffFits | vmm/src/vmm_config/device_config.rs:122-154 | On a valid bus, insert succeeds iff the length is positive, the range ends inside the 64-bit space, and it meets no stored range. Every failure leaves the bus unchanged. |
| DeviceBus.InsertPreservesValid | vmm/src/vmm_config/device_config.rs:83-86 | Every call to the corrected `Insert`, accepted or refused, keeps every range non-empty, inside the 64-bit space, and pairwise disjoint. |
| DeviceBus.EmptyBusIsValid | vmm/src/vmm_config/device_config.rs:93-98 | The bus `Bus::new` returns holds no device and is valid. |
| DeviceBus.InsertAllPreservesValid | vmm/src/vmm_config/device_config.rs:83-86 | Any series of calls to the corrected `Insert`, whatever each one answers, keeps a valid bus valid. |
| DeviceBus.InsertsFromEmptyStayDisjoint | vmm/src/vmm_config/device_config.rs:83-98 | Starting from `Bus::new`, after any series of calls to the corrected `Insert`, no two stored ranges share an address. |
| DeviceBus.InsertAsWrittenFromEmptyOverlaps | vmm/src/vmm_config/device_config.rs:93-154 | The code as written breaks that promise: from `Bus::new`, inserting `[2^64 - 8, 2^64)` and then `(2^64 - 16, 32)` succeeds twice and leaves an invalid bus. |
| DeviceBus.Read | vmm/src/vmm_config/device_config.rs:156-169 | Handled iff `get_device(addr)` is `Some`; otherwise the bus and the buffer are untouched. The buffer keeps its length. Only the owning entry changes, to the device after its `read` at `addr - base`. |
| DeviceBus.Write | vmm/src/vmm_config/device_config.rs:171-184 | Handled iff `get_device(addr)` is `Some`; otherwise the bus is untouched. Only the owning entry changes, to the device after its `write` at `addr - base`. |
| DeviceTraits.Read | fc_util/src/device_config.rs:35 | Keeps the device's type and operations and the buffer's length. The default leaves the device and the buffer unchanged. |
| DeviceTraits.Write | fc_util/src/device_config.rs:37 | Keeps the device's type and operations. The default leaves the device unchanged. |
| DeviceTraits.DefaultAccessesAreInert | fc_util/src/device_config.rs:35-37 | A device with default `read` and `write` goes through any history of accesses unchanged. Every read hands back the buffer it was given. |
| DeviceTraits.Interrupt | fc_util/src/device_config.rs:39 | The default raises no signal, for every mask. |
| DeviceTraits.RawInput | fc_util/src/device_config.rs:45-47 | The default returns `Ok` and leaves the handler unchanged. |
| DeviceTraits.RawOutput | fc_util/src/device_config.rs:48-51 | The buffer keeps its length, as a `&mut [u8]` must. The default returns `Ok` and leaves the handler and the buffer unchanged. |
| DeviceTraits.MmioIoevents | fc_util/src/device_config.rs:65-71 | The default returns exactly one event: the descriptor number `newFd`, address `Mmio(base)`, datamatch 0. |
| DeviceTraits.Serialize | fc_util/src/device_config.rs:77-79 | The default serializes to the empty byte sequence. |
| DeviceTraits.DeviceTypeEquality | fc_util/src/device_config.rs:87-98 | Equality is structural: the same variant, and for `Virtio` the same id. |
| IccRegs.KvmDeviceAttr | src/arch/src/aarch64/gic/gicv2/regs/icc_regs.rs:28-44 | The attribute uses group `CPU_REGS` and flags 0, and its id is the packed `(offset, cpuid)`. |
| IccRegs.IccKeyIsKvmDeviceAttr | src/arch/src/aarch64/gic/gicv2/regs/icc_regs.rs:32-44 | The key every get and set of the ICC path uses is exactly the group and id of the `kvm_device_attr` record, whose flags are 0. |
| IccRegs.PackedOffset | src/arch/src/aarch64/gic/gicv2/regs/icc_regs.rs:37-40 | Bits 0..31 of the id hold `offset & 0xffffffff`. |
| IccRegs.PackedCpuid | src/arch/src/aarch64/gic/gicv2/regs/icc_regs.rs:19-20 | Shifting out the 32 offset bits leaves `cpuid & 0xff`, and bits 40..63 are zero. |
| IccRegs.DecodeKvmDeviceAttr | src/arch/src/aarch64/gic/gicv2/regs/icc_regs.rs:37-40 | Decoding an id recovers `(offset mod 2^32, cpuid mod 256)`. |
| IccRegs.KvmDeviceAttrInjective | src/arch/src/aarch64/gic/gicv2/regs/icc_regs.rs:37-40 | For `offset < 2^32` and `cpuid < 256`, two ids are equal iff both offsets and both cpuids are. |
| IccRegs.IccTableShape | src/arch/src/aarch64/gic/gicv2/regs/icc_regs.rs:12-17 | The table has four registers, at 0x00, 0x04, 0x08 and 0x1c, each 4 bytes wide. |
| IccRegs.IccChunks | src/arch/src/aarch64/gic/gicv2/regs/icc_regs.rs:12-26 | With `u64` chunks, each 4-byte table register is moved as one chunk at its own offset. |
| IccRegs.IccReadsLayout | src/arch/src/aarch64/gic/gicv2/regs/icc_regs.rs:47-50 | Reading one vCPU is one get per table register, in table order, each at its packed id. |
| IccRegs.IccSnapshotLayout | src/arch/src/aarch64/gic/gicv2/regs/icc_regs.rs:47-56 | A saved CPU interface holds one single-chunk entry per table register, in table order: the value stored at that register's id. |
| IccRegs.IccCallsUseCpuRegsGroup | src/arch/src/aarch64/gic/gicv2/regs/icc_regs.rs:28-30 | Every get of `get_icc_regs` and every set of `set_icc_regs`, for any state, uses group `CPU_REGS`. |
| IccRegs.GetIccRegs | src/arch/src/aarch64/gic/gicv2/regs/icc_regs.rs:47-57 | Makes exactly the table's gets and stops at the first failure, with its error. It changes no register. On success it returns the stored values and an empty `ap` list. |
| IccRegs.SetIccRegs | src/arch/src/aarch64/gic/gicv2/regs/icc_regs.rs:59-68 | Writes the main registers against the table, paired position by position. It stops at the first failure with the engine's error. |
| IccRegs.SetIccRegsIgnoresAp | src/arch/src/aarch64/gic/gicv2/regs/icc_regs.rs:59-65 | The `ap` registers play no part in `set_icc_regs`. |
| IccRegs.IccRoundTrip | src/arch/src/aarch64/gic/gicv2/regs/icc_regs.rs:47-68 | Setting what a successful get returned succeeds and leaves every register as it was. |
| RegEngine.GetRegs | src/arch/src/aarch64/gic/gicv2/regs/icc_regs.rs:49-50 | `get_regs_data`: one get per chunk, register by register, stopping at the first failure. It changes no register, and on success returns what the store holds. |
| RegEngine.SetRegs | src/arch/src/aarch64/gic/gicv2/regs/icc_regs.rs:60-65 | `set_regs_data`: one set per chunk, pairing descriptors with values, stopping at the first failure. |
| RegEngine.GetThenSetRestores | src/arch/src/aarch64/gic/gicv2/regs/icc_regs.rs:47-68 | Setting what a successful get returned succeeds and restores every register. |
| Gicv2.SaveVcpus | src/arch/src/aarch64/gic/gicv2/regs/mod.rs:40-45 | One `get_icc_regs` per MPIDR in caller order, stopping at the first error. On success entry `i` is the CPU interface of `mpidrs[i]`, and there is one entry per MPIDR. |
| Gicv2.SaveState | src/arch/src/aarch64/gic/gicv2/regs/mod.rs:39-51 | Reads every CPU interface, then the distributor, and stops at the first failure with its error. It changes no register. On success the log gains exactly these calls and the result holds the stored values. |
| Gicv2.RestoreVcpus | src/arch/src/aarch64/gic/gicv2/regs/mod.rs:60-62 | One `set_icc_regs` per pair `(mpidrs[i], vcpus[i])` in index order, stopping at the first error. |
| Gicv2.RestoreState | src/arch/src/aarch64/gic/gicv2/regs/mod.rs:54-65 | Writes the distributor first. On a count mismatch the result is the distributor's error if it failed, else `InconsistentVcpuCount`, with only the distributor calls made. Otherwise all vCPUs follow. |
| Gicv2.RestoreMismatchWritesOnlyDistributor | src/arch/src/aarch64/gic/gicv2/regs/mod.rs:55-59 | On a count mismatch every call made is a set in the distributor group, so no CPU-interface register is written. |
| Gicv2.SaveRestoreRoundTrip | src/arch/src/aarch64/gic/gicv2/regs/mod.rs:39-65 | Restoring what a successful save returned, for the same MPIDRs, succeeds and leaves every register as before the save. |
| Gicv2.SaveReportsFirstIccFault | src/arch/src/aarch64/gic/gicv2/regs/mod.rs:41-44 | If the first vCPU's first CPU-interface register is unreachable, save fails on that first get. The error carries its code, `false` (a read) and group `CPU_REGS`. |
| Gicv3.SavePendingTablesCall | src/arch/src/aarch64/gic/gicv3/regs/mod.rs:31-32 | The flush is one control call. It changes no register, and a failure is reported as a write in the control group. |
| Gicv3.SaveVcpu | src/arch/src/aarch64/gic/gicv3/regs/mod.rs:36-39 | Reads one vCPU's redistributor, then its CPU interface, and stops at the first failure. On success it returns both snapshots. |
| Gicv3.SaveVcpus | src/arch/src/aarch64/gic/gicv3/regs/mod.rs:34-40 | One vCPU after another in caller order, stopping at the first error. On success there is one entry per MPIDR, entry `i` for `mpidrs[i]`. |
| Gicv3.SaveState | src/arch/src/aarch64/gic/gicv3/regs/mod.rs:30-46 | Flush, then every vCPU, then the distributor; it stops at the first failure with its error. It changes no register. On success the log gains exactly these calls and the result holds the stored values. |
| Gicv3.SaveStopsOnFlushFailure | src/arch/src/aarch64/gic/gicv3/regs/mod.rs:31-32 | A failing flush ends the save after that one call, as a write error in the control group. |
| Gicv3.SaveReportsFirstRedistFault | src/arch/src/aarch64/gic/gicv3/regs/mod.rs:36-37 | After a successful flush, an unreachable first redistributor register fails the save on that get. The error carries its code, `false` and group `REDIST_REGS`. |
| Gicv3.RestoreVcpu | src/arch/src/aarch64/gic/gicv3/regs/mod.rs:56-57 | Writes one vCPU's redistributor, then its CPU interface, stopping at the first failure. |
| Gicv3.RestoreVcpus | src/arch/src/aarch64/gic/gicv3/regs/mod.rs:55-58 | One vCPU per pair `(mpidrs[i], vcpus[i])` in index order, stopping at the first error. |
| Gicv3.RestoreState | src/arch/src/aarch64/gic/gicv3/regs/mod.rs:49-61 | Writes the distributor first. On a count mismatch the result is the distributor's error if it failed, else `InconsistentVcpuCount`, with only the distributor calls made. Otherwise all vCPUs follow. There is no flush. |
| Gicv3.RestoreMismatchWritesOnlyDistributor | src/arch/src/aarch64/gic/gicv3/regs/mod.rs:50-54 | On a count mismatch every call made is a set in the distributor group, so no redistributor or CPU-interface register is written. |
| Gicv3.SaveRestoreRoundTrip | src/arch/src/aarch64/gic/gicv3/regs/mod.rs:30-61 | Restoring what a successful save returned, for the same MPIDRs, succeeds and leaves every register as the save (flush included) left it, which is also as before the save. |

## Left out

- `Arc<Mutex<…>>` sharing and the panic on a poisoned lock in `Bus::read` / `Bus::write`. That is concurrency; devices are owned by the bus.
- `DeviceConfigs` and its constructor. It is a plain record of configurations that the bus never uses.
- `FirecrackerDevice::irq_fds`, `set_mem` and `deserialize`. They have no default body to state, or they need guest memory.
- `AsAny` upcasting, `Display` implementations and `DeviceInfoForFDT`. They carry no behaviour the bus relies on.
- `DeviceTraits.MmioIoevents`: the default creates an `EventFd`. The descriptor it would get from the host is the parameter `newFd`, and a failure to create it (an `unwrap` panic) is not modelled. The model returns only the number: in the code the `EventFd` is a temporary of the function's tail expression (line 67) and owns its descriptor, so it is closed when `mmio_ioevents` returns, and the number the caller receives no longer names an open eventfd. Descriptor lifetimes are not modelled.
- `DeviceTraits.Read`: a device's own `read` is any function of its state, the offset and the buffer. Its bytes are laid over the caller's buffer, because a slice cannot change length.
- `DeviceTraits.RawOutput`: a handler's own `raw_output` is likewise any function of its state and the buffer, laid over the caller's buffer.
- `DeviceBus.InsertAsWritten`: follows release-build wrapping arithmetic. In a debug build `base + len` panics with "attempt to add with overflow" as soon as it reaches `2^64` (line 141), including the case `base + len == 2^64` that the wrap gets right. That panic is not modelled.
- `DeviceBus.Insert`: refuses a range running past `2^64` with `Overlap`, the only error `Bus::insert` has. The code has no such check; see "## Findings".
- Real `KVM_GET/SET_DEVICE_ATTR` ioctls, the buffer address passed in `addr`, and the `println!` calls. The attribute store stands in for the hypervisor.
- The guest-memory effect of the pending-table flush. Only the control call and its error are modelled.
- `save_pending_tables` is called at `gicv3/regs/mod.rs:32` but is not part of this model; `Gicv3.SavePendingTablesCall` reconstructs it as one set of attribute `SAVE_PENDING_TABLES` in group `CTRL`, whose failure is reported as `DeviceAttribute(code, true, CTRL)`.
- `versionize` serialisation of the saved state.
- `VgicRegEngine` is reconstructed, not modelled from source: chunk stepping, order, position-by-position pairing, and the error triple.
- `u32` chunks are carried as `bv64` values.
- `dist_regs`, `redist_regs` and GICv3 `icc_regs` are not part of this model. Their register lists are parameters. The GICv3 CPU interface is a plain register table, without its active-priority logic or `InvalidVgicSysRegState`.
- The test at `icc_regs.rs:88-89` expects 7 main and 8 active-priority registers. That contradicts the four-entry table and the empty `ap` list of the same file, and is not encoded.
- `IccRegs.SetIccRegsIgnoresAp`: the test at `icc_regs.rs:93-98` expects `set_icc_regs` to fail with `InvalidVgicSysRegState` once the active-priority entries are `None`. The code at lines 59-68 never reads `ap_icc_regs`, so the model's set succeeds there; the expectation is not encoded.
- `IccRegs.GetIccRegs` and `IccRegs.SetIccRegs`: the test at `icc_regs.rs:104-114` expects errors in group 6 (`CPU_SYSREGS`). The code uses group 2 (`CPU_REGS`, line 29), and so does the model.
- The attribute store's choices stand in for the hypervisor, and the round trips (`RegEngine.GetThenSetRestores`, `IccRegs.IccRoundTrip`, both `SaveRestoreRoundTrip`s) rest on them. A set fails exactly where a get of the same attribute fails, whatever the value. A successful set stores exactly that value, and a failed set changes nothing. A control call, the pending-table flush included, changes no register, so `Gicv3.SaveState` leaves every register as it was. KVM promises none of these; the flush in particular may change register contents, which is why the code flushes first. `Gicv3.SaveRestoreRoundTrip` therefore also states its result against the registers as the save left them.
- Concrete kernel error codes in the tests (`Error(22)`, `Error(9)`). Codes stay abstract.

## Findings

| source | as written | input that shows it | evidently intended | confidence | as-written member | corrected member |
|---|---|---|---|---|---|---|
| vmm/src/vmm_config/device_config.rs:141 | `first_before(base + len - 1)` in `u64`; a release build wraps the last byte past `2^64` to a small address | `[2^64 - 8, 2^64)` stored, then `insert(dev, 2^64 - 16, 32)`: the last byte wraps to 15, `first_before(15)` is `None`, and the overlapping range is accepted | no two devices overlap (lines 83-86), so a range running past the address space is refused | not executed; high for release builds, while a debug build panics instead | DeviceBus.InsertAsWritten, DeviceBus.InsertAsWrittenAcceptsOverlap, DeviceBus.InsertAsWrittenFromEmptyOverlaps | DeviceBus.Insert, DeviceBus.InsertRejectsRangeStartingInside, DeviceBus.InsertSucceedsIffFits, DeviceBus.InsertPreservesValid, DeviceBus.InsertAllPreservesValid, DeviceBus.InsertsFromEmptyStayDisjoint |

=== FILE: device_bus.dfy ===
/**
 * The address-space router (`Bus`): disjoint half-open ranges mapped to devices.
 *
 * The backing ordered map is a sequence of entries kept in strictly increasing
 * order of `base`, which is the order (and the equality) of the map's key type
 * `BusRange`. Every operation is a pure function that returns the new bus.
 */
module DeviceBus {
  import opened Wrappers
  import opened MachineWords
  import DeviceTraits

  type Device = DeviceTraits.Device

  /** The one way an insertion can fail. */
  datatype BusError = Overlap

  /** `BusRange(base, len)` stands for the addresses `[base, base + len)`. */
  datatype BusRange = BusRange(base: u64, len: u64)

  datatype Ordering = Less | Equal | Greater

  /** `PartialEq for BusRange`: two ranges are equal when their bases are. */
  predicate RangeEq(a: BusRange, b: BusRange)
  {
    a.base == b.base
  }

  /** `Ord for BusRange`: ranges are ordered by their bases. */
  function Compare(a: BusRange, b: BusRange): Ordering
  {
    if a.base < b.base then Less else if a.base == b.base then Equal else Greater
  }

  function Reverse(o: Ordering): Ordering
  {
    match o
    case Less => Greater
    case Equal => Equal
    case Greater => Less
  }

  /**
   * The key order looks at bases only: lengths never matter, the order agrees
   * with `RangeEq`, and it is antisymmetric.
   */
  lemma BusRangeOrderIsByBase(a: BusRange, b: BusRange, la: u64, lb: u64)
    ensures RangeEq(a, b) <==> Compare(a, b) == Equal
    ensures Compare(a, b) == Less <==> a.base < b.base
    ensures Compare(a, b) == Compare(a.(len := la), b.(len := lb))
    ensures RangeEq(a, b) == RangeEq(a.(len := la), b.(len := lb))
    ensures Compare(a, b) == Reverse(Compare(b, a))
  {
  }

  /** Does `r` own address `addr`? */
  predicate Contains(r: BusRange, addr: int)
  {
    r.base <= addr < r.base + r.len
  }

  /** Do two ranges share an address? */
  predicate Intersect(a: BusRange, b: BusRange)
  {
    a.base < b.base + b.len && b.base < a.base + a.len
  }

  /** One slot of the map: its key and the device behind it. */
  datatype Entry = Entry(range: BusRange, dev: Device)

  /** The ordered map's invariant: keys strictly increase in key order. */
  predicate Ordered(es: seq<Entry>)
  {
    forall i, j :: 0 <= i < j < |es| ==> es[i].range.base < es[j].range.base
  }

  datatype BusMap = BusMap(devices: seq<Entry>)

  /** A bus: a map from `BusRange` to device, in key order. */
  type Bus = b: BusMap | Ordered(b.devices) witness BusMap([])

  /** `Bus::new`: an empty address space. */
  const EmptyBus: Bus := BusMap([])

  /**
   * The bus invariant: every range is non-empty and lies in the 64-bit
   * address space, and no two ranges share an address.
   */
  predicate Valid(bus: Bus)
  {
    WellSized(bus.devices) && Disjoint(bus.devices)
  }

  predicate WellSized(es: seq<Entry>)
  {
    forall i :: 0 <= i < |es| ==> 0 < es[i].range.len && es[i].range.base + es[i].range.len <= U64_LIMIT
  }

  predicate Disjoint(es: seq<Entry>)
  {
    forall i, j :: 0 <= i < |es| && 0 <= j < |es| && i != j ==> !Intersect(es[i].range, es[j].range)
  }

  /** Scan `es[..k]` from the back for the first base at or below `addr`. */
  function ScanBack(es: seq<Entry>, addr: u64, k: nat): (r: Option<nat>)
    requires k <= |es|
    ensures r.Some? ==> r.value < k && es[r.value].range.base <= addr
    ensures r.Some? ==> forall j :: r.value < j < k ==> es[j].range.base > addr
    ensures r.None? ==> forall j :: 0 <= j < k ==> es[j].range.base > addr
    decreases k
  {
    if k == 0 then None
    else if es[k - 1].range.base <= addr then Some(k - 1)
    else ScanBack(es, addr, k - 1)
  }

  /** The slot `first_before` stops at: the greatest base at or below `addr`. */
  function FirstBeforeIndex(bus: Bus, addr: u64): (r: Option<nat>)
    ensures r.None? <==> forall j :: 0 <= j < |bus.devices| ==> bus.devices[j].range.base > addr
    ensures r.Some? ==> r.value < |bus.devices| && bus.devices[r.value].range.base <= addr
    ensures r.Some? ==> forall j :: 0 <= j < |bus.devices| && bus.devices[j].range.base <= addr ==>
      j <= r.value
  {
    ScanBack(bus.devices, addr, |bus.devices|)
  }

  /** `Bus::first_before`: the entry with the greatest base not above `addr`. */
  function FirstBefore(bus: Bus, addr: u64): (r: Option<Entry>)
    ensures r.None? <==> forall j :: 0 <= j < |bus.devices| ==> bus.devices[j].range.base > addr
    ensures r.Some? ==> r.value.range.base <= addr
    ensures r.Some? ==> exists i :: 0 <= i < |bus.devices| && bus.devices[i] == r.value
    ensures r.Some? ==> forall j :: 0 <= j < |bus.devices| && bus.devices[j].range.base <= addr ==>
      bus.devices[j].range.base <= r.value.range.base
  {
    match FirstBeforeIndex(bus, addr)
    case None => None
    case Some(i) => Some(bus.devices[i])
  }

  /** The slot `get_device` answers with: the predecessor, if it reaches `addr`. */
  function Owner(bus: Bus, addr: u64): (r: Option<nat>)
    ensures r.Some? ==> r.value < |bus.devices| && Contains(bus.devices[r.value].range, addr)
  {
    match FirstBeforeIndex(bus, addr)
    case None => None
    case Some(i) =>
      var offset := addr - bus.devices[i].range.base;
      if offset < bus.devices[i].range.len then Some(i) else None
  }

  /** `Bus::get_device`: the offset of `addr` within its device, and the device. */
  function GetDevice(bus: Bus, addr: u64): (r: Option<(u64, Device)>)
    ensures r.Some? ==>
              exists i :: 0 <= i < |bus.devices| && Contains(bus.devices[i].range, addr) &&
                          r.value == (addr - bus.devices[i].range.base, bus.devices[i].dev)
  {
    match Owner(bus, addr)
    case None => None
    case Some(i) => Some((addr - bus.devices[i].range.base, bus.devices[i].dev))
  }

  /** On a valid bus at most one range holds any address. */
  lemma OwnerIsUnique(bus: Bus, addr: u64, i: nat, j: nat)
    requires Valid(bus)
    requires i < |bus.devices| && Contains(bus.devices[i].range, addr)
    requires j < |bus.devices| && Contains(bus.devices[j].range, addr)
    ensures i == j
  {
    if i != j {
      assert Intersect(bus.devices[i].range, bus.devices[j].range);
    }
  }

  /** The predecessor search finds the range holding `addr` whenever there is one. */
  lemma OwnerFindsContainingRange(bus: Bus, addr: u64, i: nat)
    requires Valid(bus)
    requires i < |bus.devices| && Contains(bus.devices[i].range, addr)
    ensures Owner(bus, addr) == Some(i)
  {
    var es := bus.devices;
    var k := FirstBeforeIndex(bus, addr).value;
    assert i <= k;
  }

  /**
   * `get_device(addr)` answers exactly when some range holds `addr`, and then
   * with that (unique) range's device and the offset of `addr` inside it.
   */
  lemma GetDeviceFindsOwner(bus: Bus, addr: u64)
    requires Valid(bus)
    ensures GetDevice(bus, addr).Some? <==>
      exists i :: 0 <= i < |bus.devices| && Contains(bus.devices[i].range, addr)
    ensures forall i :: 0 <= i < |bus.devices| && Contains(bus.devices[i].range, addr) ==>
      GetDevice(bus, addr) == Some((addr - bus.devices[i].range.base, bus.devices[i].dev))
  {
    forall i | 0 <= i < |bus.devices| && Contains(bus.devices[i].range, addr)
      ensures GetDevice(bus, addr) == Some((addr - bus.devices[i].range.base, bus.devices[i].dev))
    {
      OwnerFindsContainingRange(bus, addr, i);
    }
  }

  /**
   * The edges of a range: its first and last address resolve to its device at
   * offsets `0` and `len - 1`; the address just past it resolves only when
   * another range starts exactly there.
   */
  lemma GetDeviceAtRangeEdges(bus: Bus, i: nat)
    requires Valid(bus) && i < |bus.devices|
    ensures GetDevice(bus, bus.devices[i].range.base) == Some((0, bus.devices[i].dev))
    ensures GetDevice(bus, bus.devices[i].range.base + bus.devices[i].range.len - 1) ==
      Some((bus.devices[i].range.len - 1, bus.devices[i].dev))
    ensures (bus.devices[i].range.base + bus.devices[i].range.len < U64_LIMIT &&
             GetDevice(bus, bus.devices[i].range.base + bus.devices[i].range.len).Some?) ==>
      (exists j :: 0 <= j < |bus.devices| &&
        bus.devices[j].range.base == bus.devices[i].range.base + bus.devices[i].range.len)
  {
    var r := bus.devices[i].range;
    OwnerFindsContainingRange(bus, r.base, i);
    OwnerFindsContainingRange(bus, r.base + r.len - 1, i);
    if r.base + r.len < U64_LIMIT && GetDevice(bus, r.base + r.len).Some? {
      var j := Owner(bus, r.base + r.len).value;
      assert i != j;
      assert !Intersect(bus.devices[i].range, bus.devices[j].range);
    }
  }

  /** The slot whose key equals `key` under `RangeEq`, if any: the map's key search. */
  function KeyIndex(es: seq<Entry>, key: BusRange): (r: Option<nat>)
    ensures r.Some? ==> r.value < |es| && es[r.value].range.base == key.base
    ensures r.None? ==> forall i :: 0 <= i < |es| ==> es[i].range.base != key.base
    decreases |es|
  {
    if es == [] then None
    else if RangeEq(es[|es| - 1].range, key) then Some(|es| - 1)
    else KeyIndex(es[..|es| - 1], key)
  }

  /** Where a new key goes under `Compare`: after every smaller key, before every other. */
  function InsertPos(es: seq<Entry>, key: BusRange): (p: nat)
    requires Ordered(es)
    ensures p <= |es|
    ensures forall i :: 0 <= i < p ==> es[i].range.base < key.base
    ensures forall i :: p <= i < |es| ==> es[i].range.base >= key.base
    decreases |es|
  {
    if es == [] || Compare(es[0].range, key) != Less then 0
    else 1 + InsertPos(es[1..], key)
  }

  /** `es'` is `es` with `e` placed at one position and nothing else changed. */
  ghost predicate Spliced(es: seq<Entry>, es': seq<Entry>, e: Entry)
  {
    exists p :: 0 <= p <= |es| && es' == es[..p] + [e] + es[p..]
  }

  /** Placing a key between the smaller and the larger ones keeps the order. */
  lemma SpliceKeepsOrdered(es: seq<Entry>, p: nat, e: Entry)
    requires Ordered(es) && p <= |es|
    requires forall i :: 0 <= i < p ==> es[i].range.base < e.range.base
    requires forall i :: p <= i < |es| ==> es[i].range.base > e.range.base
    ensures Ordered(es[..p] + [e] + es[p..])
  {
    var es' := es[..p] + [e] + es[p..];
    assert forall j :: 0 <= j < |es'| ==> es'[j] == if j < p then es[j] else if j == p then e else es[j - 1];
  }

  /**
   * `BTreeMap::insert`: a new key is placed in order; for a key already
   * present the value is replaced, the old key is kept, and the old value is
   * returned.
   */
  function MapInsert(bus: Bus, key: BusRange, dev: Device): (r: (Bus, Option<Device>))
    ensures r.1.None? ==> Spliced(bus.devices, r.0.devices, Entry(key, dev))
    ensures r.1.None? <==> forall i :: 0 <= i < |bus.devices| ==> bus.devices[i].range.base != key.base
    ensures r.1.Some? ==>
              exists i :: 0 <= i < |bus.devices| && bus.devices[i].range.base == key.base &&
                          r.1.value == bus.devices[i].dev &&
                          r.0.devices == bus.devices[i := Entry(bus.devices[i].range, dev)]
  {
    var es := bus.devices;
    match KeyIndex(es, key)
    case Some(i) =>
      var es' := es[i := Entry(es[i].range, dev)];
      assert forall j :: 0 <= j < |es'| ==> es'[j].range == es[j].range;
      (BusMap(es'), Some(es[i].dev))
    case None =>
      var p := InsertPos(es, key);
      SpliceKeepsOrdered(es, p, Entry(key, dev));
      (BusMap(es[..p] + [Entry(key, dev)] + es[p..]), None)
  }

  /**
   * The part of `Bus::insert` after the length check, given the address `last`
   * the code takes as the new range's last byte. A base inside an existing
   * range is refused, then an existing range starting in `[base, last]`. Only
   * then is the map touched, and a key clash still reports `Overlap`.
   */
  function Place(bus: Bus, dev: Device, base: u64, len: u64, last: u64): (r: (Bus, Result<(), BusError>))
    ensures r.1.Ok? ==> GetDevice(bus, base).None? && Spliced(bus.devices, r.0.devices, Entry(BusRange(base, len), dev))
    ensures r.1.Ok? ==> forall i :: 0 <= i < |bus.devices| && bus.devices[i].range.base <= last ==>
      bus.devices[i].range.base < base
  {
    if GetDevice(bus, base).Some? then (bus, Err(Overlap))
    else if (var prev := FirstBefore(bus, last); prev.Some? && prev.value.range.base >= base) then
      (bus, Err(Overlap))
    else
      var (m, prior) := MapInsert(bus, BusRange(base, len), dev);
      if prior.Some? then (m, Err(Overlap)) else (m, Ok(()))
  }

  /**
   * `base + len - 1` in the wrapping `u64` arithmetic of a release build:
   * the sum is below 2^65, so wrapping subtracts 2^64 at most once.
   */
  function WrappingLast(base: u64, len: u64): (last: u64)
    requires 0 < len
    ensures last == (base + len - 1) % U64_LIMIT
  {
    if base + len <= U64_LIMIT then base + len - 1 else base + len - 1 - U64_LIMIT
  }

  /**
   * `Bus::insert` as written, in the wrapping `u64` arithmetic of a release
   * build.
   */
  function InsertAsWritten(bus: Bus, dev: Device, base: u64, len: u64): (r: (Bus, Result<(), BusError>))
    ensures r.1.Ok? ==> 0 < len && Spliced(bus.devices, r.0.devices, Entry(BusRange(base, len), dev))
  {
    if len == 0 then (bus, Err(Overlap))
    else Place(bus, dev, base, len, WrappingLast(base, len))
  }

  /**
   * `Bus::insert` with its end computed without wrapping: an empty range, and
   * a range running past the 64-bit address space, are refused with the only
   * error the bus has; every other range goes through the code's checks.
   */
  function Insert(bus: Bus, dev: Device, base: u64, len: u64): (r: (Bus, Result<(), BusError>))
    ensures r.1.Ok? ==> 0 < len && base + len <= U64_LIMIT &&
                        Spliced(bus.devices, r.0.devices, Entry(BusRange(base, len), dev))
  {
    if len == 0 || U64_LIMIT < base + len then (bus, Err(Overlap))
    else Place(bus, dev, base, len, base + len - 1)
  }

  /** Wherever the new range fits in the address space, the wrap never happens and the two agree. */
  lemma InsertAsWrittenAgrees(bus: Bus, dev: Device, base: u64, len: u64)
    requires base + len <= U64_LIMIT
    ensures InsertAsWritten(bus, dev, base, len) == Insert(bus, dev, base, len)
  {
  }

  /** A bus holding the last eight bytes of the address space. */
  function TopBus(d: Device): (bus: Bus)
    ensures Valid(bus) && |bus.devices| == 1
    ensures bus.devices[0].range == BusRange(U64_LIMIT - 8, 8)
  {
    BusMap([Entry(BusRange(U64_LIMIT - 8, 8), d)])
  }

  /**
   * The wrap lets an overlap through: beside `[2^64 - 8, 2^64)`, the range
   * `[2^64 - 16, 2^64 + 16)` ends at byte 15 once wrapped, nothing starts at
   * or below 15, and the insertion succeeds; the bus stops being valid. The
   * corrected `Insert` refuses it.
   */
  lemma InsertAsWrittenAcceptsOverlap(d: Device, dev: Device)
    ensures !Fits(TopBus(d), U64_LIMIT - 16, 32)
    ensures InsertAsWritten(TopBus(d), dev, U64_LIMIT - 16, 32).1 == Ok(())
    ensures !Valid(InsertAsWritten(TopBus(d), dev, U64_LIMIT - 16, 32).0)
    ensures Insert(TopBus(d), dev, U64_LIMIT - 16, 32) == (TopBus(d), Err(Overlap))
  {
    var bus := TopBus(d);
    var base, len := U64_LIMIT - 16, 32;
    assert WrappingLast(base, len) == 15;
    assert FirstBefore(bus, base).None?;
    assert FirstBefore(bus, 15).None?;
    var r := InsertAsWritten(bus, dev, base, len);
    var p :| 0 <= p <= 1 && r.0.devices == bus.devices[..p] + [Entry(BusRange(base, len), dev)] + bus.devices[p..];
    assert |r.0.devices| == 2;
    var q := if p == 0 then 1 else 0;
    assert r.0.devices[p] == Entry(BusRange(base, len), dev);
    assert r.0.devices[q] == bus.devices[0];
    assert Intersect(r.0.devices[p].range, r.0.devices[q].range);
  }

  /** An empty range is refused whatever its base, and the bus stays as it was. */
  lemma InsertZeroLength(bus: Bus, dev: Device, base: u64)
    ensures Insert(bus, dev, base, 0) == (bus, Err(Overlap))
  {
  }

  /** A new base that lies inside an existing range is refused. */
  lemma InsertRejectsBaseInsideRange(bus: Bus, dev: Device, base: u64, len: u64, i: nat)
    requires Valid(bus)
    requires i < |bus.devices| && Contains(bus.devices[i].range, base)
    ensures Insert(bus, dev, base, len) == (bus, Err(Overlap))
  {
    OwnerFindsContainingRange(bus, base, i);
  }

  /** Under the corrected `Insert`, a new range that swallows the start of an existing range is refused. */
  lemma InsertRejectsRangeStartingInside(bus: Bus, dev: Device, base: u64, len: u64, i: nat)
    requires i < |bus.devices| && base <= bus.devices[i].range.base < base + len
    ensures Insert(bus, dev, base, len) == (bus, Err(Overlap))
  {
    if base + len <= U64_LIMIT && GetDevice(bus, base).None? {
      var prev := FirstBefore(bus, base + len - 1);
      assert prev.Some? && prev.value.range.base >= bus.devices[i].range.base;
    }
  }

  /**
   * The code as written refuses such a range too, as long as it ends inside
   * the address space; `InsertAsWrittenAcceptsOverlap` shows a range past it
   * slipping through.
   */
  lemma InsertAsWrittenRejectsRangeStartingInside(bus: Bus, dev: Device, base: u64, len: u64, i: nat)
    requires base + len <= U64_LIMIT
    requires i < |bus.devices| && base <= bus.devices[i].range.base < base + len
    ensures InsertAsWritten(bus, dev, base, len) == (bus, Err(Overlap))
  {
    InsertAsWrittenAgrees(bus, dev, base, len);
    InsertRejectsRangeStartingInside(bus, dev, base, len, i);
  }

  /** A second device at a base already in use is refused, whatever its length. */
  lemma InsertRejectsDuplicateBase(bus: Bus, dev: Device, len: u64, i: nat)
    requires Valid(bus) && i < |bus.devices|
    ensures Insert(bus, dev, bus.devices[i].range.base, len) == (bus, Err(Overlap))
  {
    InsertRejectsBaseInsideRange(bus, dev, bus.devices[i].range.base, len, i);
  }

  /**
   * On a valid bus the key-clash branch is dead: a range with the same base
   * already holds that base, so `get_device` has refused the insertion before.
   */
  lemma InsertKeyClashUnreachable(bus: Bus, base: u64)
    requires Valid(bus)
    requires GetDevice(bus, base).None?
    ensures forall i :: 0 <= i < |bus.devices| ==> bus.devices[i].range.base != base
  {
    forall i | 0 <= i < |bus.devices|
      ensures bus.devices[i].range.base != base
    {
      if bus.devices[i].range.base == base {
        OwnerFindsContainingRange(bus, base, i);
      }
    }
  }

  /** The new range meets none of the stored ones. */
  predicate Fits(bus: Bus, base: u64, len: u64)
  {
    forall i :: 0 <= i < |bus.devices| ==> !Intersect(bus.devices[i].range, BusRange(base, len))
  }

  /**
   * On a valid bus, insertion succeeds exactly when the new range is
   * non-empty, lies in the address space and shares no address with a stored
   * range; when it fails the bus is unchanged.
   */
  lemma InsertSucceedsIffFits(bus: Bus, dev: Device, base: u64, len: u64)
    requires Valid(bus)
    ensures Insert(bus, dev, base, len).1.Ok? <==> 0 < len && base + len <= U64_LIMIT && Fits(bus, base, len)
    ensures Insert(bus, dev, base, len).1.Err? ==> Insert(bus, dev, base, len).0 == bus
  {
    var es := bus.devices;
    if 0 < len && base + len <= U64_LIMIT {
      if GetDevice(bus, base).None? {
        InsertKeyClashUnreachable(bus, base);
      }
      if !Fits(bus, base, len) {
        var i :| 0 <= i < |es| && Intersect(es[i].range, BusRange(base, len));
        if es[i].range.base <= base {
          InsertRejectsBaseInsideRange(bus, dev, base, len, i);
        } else {
          InsertRejectsRangeStartingInside(bus, dev, base, len, i);
        }
      } else {
        GetDeviceFindsOwner(bus, base);
      }
    }
  }

  /** Splicing a well-sized entry that meets no stored range keeps the entries valid. */
  lemma SpliceKeepsValid(es: seq<Entry>, p: nat, e: Entry)
    requires WellSized(es) && Disjoint(es) && p <= |es|
    requires 0 < e.range.len && e.range.base + e.range.len <= U64_LIMIT
    requires forall i :: 0 <= i < |es| ==> !Intersect(es[i].range, e.range)
    ensures WellSized(es[..p] + [e] + es[p..]) && Disjoint(es[..p] + [e] + es[p..])
  {
    var es' := es[..p] + [e] + es[p..];
    assert forall j :: 0 <= j < |es'| ==> es'[j] == if j < p then es[j] else if j == p then e else es[j - 1];
    forall a, b | 0 <= a < |es'| && 0 <= b < |es'| && a != b
      ensures !Intersect(es'[a].range, es'[b].range)
    {
      if a != p && b != p {
        var a0 := if a < p then a else a - 1;
        var b0 := if b < p then b else b - 1;
        assert es'[a] == es[a0] && es'[b] == es[b0];
      } else if a == p {
        var b0 := if b < p then b else b - 1;
        assert es'[b] == es[b0];
      } else {
        var a0 := if a < p then a else a - 1;
        assert es'[a] == es[a0];
      }
    }
  }

  /** Any corrected insertion, refused or not, on a valid bus leaves a valid bus. */
  lemma InsertPreservesValid(bus: Bus, dev: Device, base: u64, len: u64)
    requires Valid(bus)
    ensures Valid(Insert(bus, dev, base, len).0)
  {
    InsertSucceedsIffFits(bus, dev, base, len);
    var r := Insert(bus, dev, base, len);
    if r.1.Ok? {
      var p :| 0 <= p <= |bus.devices| &&
               r.0.devices == bus.devices[..p] + [Entry(BusRange(base, len), dev)] + bus.devices[p..];
      SpliceKeepsValid(bus.devices, p, Entry(BusRange(base, len), dev));
    }
  }

  /** The empty bus `Bus::new` returns is valid. */
  lemma EmptyBusIsValid()
    ensures Valid(EmptyBus) && |EmptyBus.devices| == 0
  {
  }

  /** One `insert(device, base, len)` call. */
  datatype InsertCall = InsertCall(dev: Device, base: u64, len: u64)

  /** The bus after a series of calls to the corrected `Insert`, whatever each one answers. */
  function InsertAll(bus: Bus, calls: seq<InsertCall>): (r: Bus)
    ensures |r.devices| <= |bus.devices| + |calls|
    decreases |calls|
  {
    if calls == [] then bus
    else
      var (b, _) := Insert(bus, calls[0].dev, calls[0].base, calls[0].len);
      InsertAll(b, calls[1..])
  }

  /** Every corrected insertion keeps a valid bus valid, so any series of them does. */
  lemma {:induction false} InsertAllPreservesValid(bus: Bus, calls: seq<InsertCall>)
    requires Valid(bus)
    ensures Valid(InsertAll(bus, calls))
    decreases |calls|
  {
    if calls != [] {
      InsertPreservesValid(bus, calls[0].dev, calls[0].base, calls[0].len);
      InsertAllPreservesValid(Insert(bus, calls[0].dev, calls[0].base, calls[0].len).0, calls[1..]);
    }
  }

  /**
   * Starting from `Bus::new`, no series of corrected insertions ever makes two
   * devices overlap. The code as written does not keep this promise; see
   * `InsertAsWrittenFromEmptyOverlaps`.
   */
  lemma InsertsFromEmptyStayDisjoint(calls: seq<InsertCall>)
    ensures Valid(InsertAll(EmptyBus, calls))
    ensures forall i, j :: 0 <= i < j < |InsertAll(EmptyBus, calls).devices| ==>
      !Intersect(InsertAll(EmptyBus, calls).devices[i].range, InsertAll(EmptyBus, calls).devices[j].range)
  {
    EmptyBusIsValid();
    InsertAllPreservesValid(EmptyBus, calls);
  }

  /**
   * Two calls of the code as written, starting from `Bus::new`, are enough to
   * store overlapping devices: first `[2^64 - 8, 2^64)`, then the wrapping
   * `[2^64 - 16, 2^64 + 16)`.
   */
  lemma InsertAsWrittenFromEmptyOverlaps(d: Device, dev: Device)
    ensures InsertAsWritten(EmptyBus, d, U64_LIMIT - 8, 8) == (TopBus(d), Ok(()))
    ensures InsertAsWritten(InsertAsWritten(EmptyBus, d, U64_LIMIT - 8, 8).0, dev, U64_LIMIT - 16, 32).1 == Ok(())
    ensures !Valid(InsertAsWritten(InsertAsWritten(EmptyBus, d, U64_LIMIT - 8, 8).0, dev, U64_LIMIT - 16, 32).0)
  {
    var r := InsertAsWritten(EmptyBus, d, U64_LIMIT - 8, 8);
    assert r.1.Ok?;
    var p :| 0 <= p <= 0 && r.0.devices == EmptyBus.devices[..p] + [Entry(BusRange(U64_LIMIT - 8, 8), d)] + EmptyBus.devices[p..];
    assert r.0.devices == TopBus(d).devices;
    InsertAsWrittenAcceptsOverlap(d, dev);
  }

  /**
   * `Bus::read`: the bus after the access, the buffer, and whether a device
   * answered. Only the owning device runs; without one, nothing changes.
   */
  function Read(bus: Bus, addr: u64, data: seq<u8>): (r: (Bus, seq<u8>, bool))
    ensures r.2 <==> GetDevice(bus, addr).Some?
    ensures !r.2 ==> r.0 == bus && r.1 == data
    ensures |r.1| == |data|
    ensures r.2 ==> r.1 == DeviceTraits.Read(GetDevice(bus, addr).value.1, GetDevice(bus, addr).value.0, data).1
    ensures r.2 ==>
              exists i :: 0 <= i < |bus.devices| && Contains(bus.devices[i].range, addr) &&
                          GetDevice(bus, addr).value == (addr - bus.devices[i].range.base, bus.devices[i].dev) &&
                          r.0.devices == bus.devices[i := Entry(bus.devices[i].range,
                            DeviceTraits.Read(bus.devices[i].dev, addr - bus.devices[i].range.base, data).0)]
  {
    match Owner(bus, addr)
    case None => (bus, data, false)
    case Some(i) =>
      var e := bus.devices[i];
      var (dev', out) := DeviceTraits.Read(e.dev, addr - e.range.base, data);
      (BusMap(bus.devices[i := Entry(e.range, dev')]), out, true)
  }

  /**
   * `Bus::write`: the bus after the access and whether a device answered.
   * Only the owning device runs; without one, nothing changes.
   */
  function Write(bus: Bus, addr: u64, data: seq<u8>): (r: (Bus, bool))
    ensures r.1 <==> GetDevice(bus, addr).Some?
    ensures !r.1 ==> r.0 == bus
    ensures r.1 ==>
              exists i :: 0 <= i < |bus.devices| && Contains(bus.devices[i].range, addr) &&
                          GetDevice(bus, addr).value == (addr - bus.devices[i].range.base, bus.devices[i].dev) &&
                          r.0.devices == bus.devices[i := Entry(bus.devices[i].range,
                            DeviceTraits.Write(bus.devices[i].dev, addr - bus.devices[i].range.base, data))]
  {
    match Owner(bus, addr)
    case None => (bus, false)
    case Some(i) =>
      var e := bus.devices[i];
      (BusMap(bus.devices[i := Entry(e.range, DeviceTraits.Write(e.dev, addr - e.range.base, data))]), true)
  }
}

=== FILE: device_traits.dfy ===
/**
 * The capability set a device offers to the bus and to the snapshot path
 * (`BusDevice`, `RawIOHandler`, `FirecrackerDevice`, `DeviceType`).
 *
 * A trait object becomes a record of optional operations: `None` selects the
 * trait's default body, `Some(f)` a device's own implementation. Dispatch
 * functions below pick one or the other, so the defaults are stated once.
 */
module DeviceTraits {
  import opened Wrappers
  import opened MachineWords

  /** Types of devices that can be attached to the platform. */
  datatype DeviceType = Virtio(id: u32) | Serial | I8042 | RTC

  /** A host file descriptor number. */
  type RawFd = int

  /** Where an ioeventfd is tied: a port or a memory-mapped address. */
  datatype IoEventAddress = Pio(port: u64) | Mmio(addr: u64)

  /** One `(fd, address, datamatch)` triple handed to the hypervisor. */
  datatype IoEvent = IoEvent(fd: RawFd, addr: IoEventAddress, datamatch: u64)

  /** An I/O error carrying the host error code. */
  datatype IoError = IoError(code: int)

  /** A device's private state; the bus never looks inside it. */
  datatype DeviceState = DeviceState(bytes: seq<u8>)

  /** The overridable capabilities of `BusDevice` and `FirecrackerDevice`. */
  datatype DeviceOps = DeviceOps(
    read: Option<(DeviceState, u64, seq<u8>) -> (DeviceState, seq<u8>)>,
    write: Option<(DeviceState, u64, seq<u8>) -> DeviceState>,
    interrupt: Option<(DeviceState, u32) -> seq<u32>>,
    mmioIoevents: Option<(DeviceState, u64) -> seq<IoEvent>>,
    serialize: Option<DeviceState -> seq<u8>>)

  /** A bus-attachable device: its type, its state and its operations. */
  datatype Device = Device(devType: DeviceType, state: DeviceState, ops: DeviceOps)

  /** The operations of a device that relies on every default. */
  const DefaultOps: DeviceOps := DeviceOps(None, None, None, None, None)

  /**
   * The caller's buffer after a device has written `out` into it: a slice
   * cannot be resized, so bytes past its end are dropped and bytes the device
   * did not reach keep their old value.
   */
  function Overlay(data: seq<u8>, out: seq<u8>): (r: seq<u8>)
    ensures |r| == |data|
    ensures forall i :: 0 <= i < |data| ==> r[i] == (if i < |out| then out[i] else data[i])
  {
    seq(|data|, i requires 0 <= i < |data| => if i < |out| then out[i] else data[i])
  }

  /** `BusDevice::read`: the buffer after the read, and the device after it. */
  function Read(d: Device, offset: u64, data: seq<u8>): (r: (Device, seq<u8>))
    ensures r.0.devType == d.devType && r.0.ops == d.ops
    ensures |r.1| == |data|
    ensures d.ops.read.None? ==> r.0 == d && r.1 == data
  {
    match d.ops.read
    case None => (d, data)
    case Some(f) =>
      var (st, out) := f(d.state, offset, data);
      (d.(state := st), Overlay(data, out))
  }

  /** `BusDevice::write`: the device after it has taken `data` at `offset`. */
  function Write(d: Device, offset: u64, data: seq<u8>): (r: Device)
    ensures r.devType == d.devType && r.ops == d.ops
    ensures d.ops.write.None? ==> r == d
  {
    match d.ops.write
    case None => d
    case Some(f) => d.(state := f(d.state, offset, data))
  }

  /**
   * `BusDevice::interrupt` takes `&self`: it cannot change the device, and its
   * only effect is the sequence of interrupt signals it raises.
   */
  function Interrupt(d: Device, irqMask: u32): (signals: seq<u32>)
    ensures d.ops.interrupt.None? ==> signals == []
  {
    match d.ops.interrupt
    case None => []
    case Some(f) => f(d.state, irqMask)
  }

  /**
   * `FirecrackerDevice::mmio_ioevents`. The default creates one event file
   * descriptor; the descriptor the host would hand out is the parameter `newFd`.
   */
  function MmioIoevents(d: Device, baseAddr: u64, newFd: RawFd): (events: seq<IoEvent>)
    ensures d.ops.mmioIoevents.None? ==>
      |events| == 1 && events[0].fd == newFd &&
      events[0].addr == Mmio(baseAddr) && events[0].datamatch == 0
  {
    match d.ops.mmioIoevents
    case None => [IoEvent(newFd, Mmio(baseAddr), 0)]
    case Some(f) => f(d.state, baseAddr)
  }

  /** `FirecrackerDevice::serialize`: by default a device serializes to nothing. */
  function Serialize(d: Device): (blob: seq<u8>)
    ensures d.ops.serialize.None? ==> blob == []
  {
    match d.ops.serialize
    case None => []
    case Some(f) => f(d.state)
  }

  /** One guest access as the bus forwards it to a device. */
  datatype DeviceAccess = ReadAt(offset: u64, data: seq<u8>) | WriteAt(offset: u64, data: seq<u8>)

  /** The device after a history of accesses, and the buffers its reads returned. */
  function Replay(d: Device, history: seq<DeviceAccess>): (r: (Device, seq<seq<u8>>))
    ensures |r.1| == |ReadsIn(history)|
    decreases |history|
  {
    if history == [] then (d, [])
    else match history[0]
      case ReadAt(off, data) =>
        var (d1, out) := Read(d, off, data);
        var (d2, outs) := Replay(d1, history[1..]);
        (d2, [out] + outs)
      case WriteAt(off, data) =>
        Replay(Write(d, off, data), history[1..])
  }

  /** The buffers handed to the reads of a history, in order. */
  function ReadsIn(history: seq<DeviceAccess>): seq<seq<u8>>
    decreases |history|
  {
    if history == [] then []
    else match history[0]
      case ReadAt(_, data) => [data] + ReadsIn(history[1..])
      case WriteAt(_, _) => ReadsIn(history[1..])
  }

  /**
   * A device that keeps the default `read` and `write` is inert: after any
   * history it is the device it was, and every read hands back its buffer as given.
   */
  lemma {:induction false} DefaultAccessesAreInert(d: Device, history: seq<DeviceAccess>)
    requires d.ops.read.None? && d.ops.write.None?
    ensures Replay(d, history) == (d, ReadsIn(history))
    decreases |history|
  {
    if history != [] {
      DefaultAccessesAreInert(d, history[1..]);
    }
  }

  /** The raw I/O capability of an emulated device (`RawIOHandler`). */
  datatype RawIoHandler = RawIoHandler(
    state: DeviceState,
    input: Option<(DeviceState, seq<u8>) -> (DeviceState, Result<(), IoError>)>,
    output: Option<(DeviceState, seq<u8>) -> (DeviceState, seq<u8>, Result<(), IoError>)>)

  /** `RawIOHandler::raw_input`: by default accepted and ignored. */
  function RawInput(h: RawIoHandler, data: seq<u8>): (r: (RawIoHandler, Result<(), IoError>))
    ensures h.input.None? ==> r.0 == h && r.1 == Ok(())
  {
    match h.input
    case None => (h, Ok(()))
    case Some(f) =>
      var (st, res) := f(h.state, data);
      (h.(state := st), res)
  }

  /**
   * `RawIOHandler::raw_output`: by default succeeds without touching the
   * buffer. An override fills the caller's slice, which keeps its length.
   */
  function RawOutput(h: RawIoHandler, data: seq<u8>): (r: (RawIoHandler, seq<u8>, Result<(), IoError>))
    ensures |r.1| == |data|
    ensures h.output.None? ==> r.0 == h && r.1 == data && r.2 == Ok(())
  {
    match h.output
    case None => (h, data, Ok(()))
    case Some(f) =>
      var (st, out, res) := f(h.state, data);
      (h.(state := st), Overlay(data, out), res)
  }

  /** Which variant a device type is, ignoring its payload. */
  function Variant(t: DeviceType): nat
  {
    match t
    case Virtio(_) => 0
    case Serial => 1
    case I8042 => 2
    case RTC => 3
  }

  /** `DeviceType` equality is structural: same variant and, for virtio, same id. */
  lemma DeviceTypeEquality(a: DeviceType, b: DeviceType)
    ensures a == b <==> Variant(a) == Variant(b) && (a.Virtio? ==> a.id == b.id)
  {
  }
}

=== FILE: gicv2.dfy ===
/**
 * Saving and restoring a GICv2 interrupt controller (`gicv2/regs`): the
 * CPU-interface registers of every vCPU, then the distributor; restoring
 * writes the distributor, checks the vCPU count, then every CPU interface.
 *
 * The distributor's register list (`dist_regs`) is not part of this model;
 * it enters as a `DistTable` parameter.
 */
module Gicv2 {
  import opened Wrappers
  import opened KvmDevice
  import opened RegEngine
  import opened IccRegs

  /** The interrupt-controller state of one vCPU (`GicVcpuState`). */
  datatype GicVcpuState = GicVcpuState(icc: SysRegsState)

  /** The saved controller (`Gicv2State`): distributor registers, then one entry per vCPU. */
  datatype Gicv2State = Gicv2State(dist: seq<RegState>, vcpus: seq<GicVcpuState>)

  /** The gets of `get_dist_regs`: the distributor table, addressed without a vCPU. */
  function DistReads(dist: DistTable): seq<Access>
  {
    RegsReads(dist.engine, dist.regs, 0)
  }

  /** The sets of `set_dist_regs`. */
  function DistWrites(dist: DistTable, vals: seq<RegState>): seq<Access>
  {
    RegsWrites(dist.engine, dist.regs, vals, 0)
  }

  /** The gets that read every vCPU's CPU interface, vCPU by vCPU in `mpidrs` order. */
  function VcpuReads(mpidrs: seq<bv64>): (t: seq<Access>)
    ensures ReadOnly(t)
    decreases |mpidrs|
  {
    if mpidrs == [] then []
    else
      ReadOnlyJoin(IccReads(mpidrs[0]), VcpuReads(mpidrs[1..]));
      IccReads(mpidrs[0]) + VcpuReads(mpidrs[1..])
  }

  /** The calls of `save_state`, in order: every CPU interface, then the distributor. */
  function SaveTrace(dist: DistTable, mpidrs: seq<bv64>): seq<Access>
  {
    VcpuReads(mpidrs) + DistReads(dist)
  }

  /** What the vCPUs' CPU interfaces hold, one entry per `mpidrs` element. */
  function SavedVcpus(cells: map<AttrKey, Cell>, mpidrs: seq<bv64>): (v: seq<GicVcpuState>)
    ensures |v| == |mpidrs|
    ensures forall i :: 0 <= i < |mpidrs| ==> v[i] == GicVcpuState(IccSnapshot(cells, mpidrs[i]))
  {
    seq(|mpidrs|, i requires 0 <= i < |mpidrs| => GicVcpuState(IccSnapshot(cells, mpidrs[i])))
  }

  lemma SavedVcpusCons(cells: map<AttrKey, Cell>, mpidrs: seq<bv64>)
    requires mpidrs != []
    ensures SavedVcpus(cells, mpidrs) == [GicVcpuState(IccSnapshot(cells, mpidrs[0]))] + SavedVcpus(cells, mpidrs[1..])
  {
    var v := SavedVcpus(cells, mpidrs);
    assert v[1..] == SavedVcpus(cells, mpidrs[1..]);
    assert v == [v[0]] + v[1..];
  }

  /** The loop of `save_state`: one `get_icc_regs` per vCPU, stopping at the first error. */
  function SaveVcpus(s: Store, mpidrs: seq<bv64>): (r: Step<seq<GicVcpuState>>)
    ensures Mirrors(r, RunTrace(s, VcpuReads(mpidrs)))
    ensures r.store.cells == s.cells
    ensures r.res.Ok? ==> r.res.value == SavedVcpus(s.cells, mpidrs)
    decreases |mpidrs|
  {
    if mpidrs == [] then Step(s, Ok([]))
    else
      RunTraceAppend(s, IccReads(mpidrs[0]), VcpuReads(mpidrs[1..]));
      var head := GetIccRegs(s, mpidrs[0]);
      if head.res.Err? then Step(head.store, Err(head.res.error))
      else
        var rest := SaveVcpus(head.store, mpidrs[1..]);
        if rest.res.Err? then Step(rest.store, Err(rest.res.error))
        else
          SavedVcpusCons(s.cells, mpidrs);
          Step(rest.store, Ok([GicVcpuState(head.res.value)] + rest.res.value))
  }

  /**
   * `save_state`: every vCPU's CPU interface, then the distributor. It fails
   * with the first failing call's error; on success it has made exactly the
   * calls of `SaveTrace` and returns what the registers hold. Saving changes
   * no register.
   */
  function SaveState(s: Store, dist: DistTable, mpidrs: seq<bv64>): (r: Step<Gicv2State>)
    ensures Mirrors(r, RunTrace(s, SaveTrace(dist, mpidrs)))
    ensures r.store.cells == s.cells
    ensures r.res.Ok? ==> r.store.log == s.log + SaveTrace(dist, mpidrs)
    ensures r.res.Ok? ==>
      r.res.value == Gicv2State(Snapshot(s.cells, dist.engine, dist.regs, 0), SavedVcpus(s.cells, mpidrs))
  {
    RunTraceAppend(s, VcpuReads(mpidrs), DistReads(dist));
    var vcpus := SaveVcpus(s, mpidrs);
    if vcpus.res.Err? then Step(vcpus.store, Err(vcpus.res.error))
    else
      var d := GetRegs(vcpus.store, dist.engine, dist.regs, 0);
      if d.res.Err? then Step(d.store, Err(d.res.error))
      else Step(d.store, Ok(Gicv2State(d.res.value, vcpus.res.value)))
  }

  /** The sets that restore the CPU interfaces, pairing `mpidrs` with `vcpus` position by position. */
  function VcpuWrites(mpidrs: seq<bv64>, vcpus: seq<GicVcpuState>): (t: seq<Access>)
    ensures SetsIn(t, GrpCpuRegs)
    decreases |mpidrs|
  {
    if mpidrs == [] || vcpus == [] then []
    else
      var head := IccWrites(mpidrs[0], vcpus[0].icc);
      var tail := VcpuWrites(mpidrs[1..], vcpus[1..]);
      assert forall i :: |head| <= i < |head + tail| ==> (head + tail)[i] == tail[i - |head|];
      head + tail
  }

  /** The loop of `restore_state`: one `set_icc_regs` per vCPU, stopping at the first error. */
  function RestoreVcpus(s: Store, mpidrs: seq<bv64>, vcpus: seq<GicVcpuState>): (r: Step<()>)
    ensures Mirrors(r, RunTrace(s, VcpuWrites(mpidrs, vcpus)))
    decreases |mpidrs|
  {
    if mpidrs == [] || vcpus == [] then Step(s, Ok(()))
    else
      RunTraceAppend(s, IccWrites(mpidrs[0], vcpus[0].icc), VcpuWrites(mpidrs[1..], vcpus[1..]));
      var head := SetIccRegs(s, mpidrs[0], vcpus[0].icc);
      if head.res.Err? then head
      else RestoreVcpus(head.store, mpidrs[1..], vcpus[1..])
  }

  /**
   * `restore_state`: the distributor first; then, if the vCPU count differs
   * from the saved one, `InconsistentVcpuCount` with only the distributor
   * written; otherwise every CPU interface in `mpidrs` order.
   */
  function RestoreState(s: Store, dist: DistTable, mpidrs: seq<bv64>, st: Gicv2State): (r: Step<()>)
    ensures |mpidrs| == |st.vcpus| ==>
      Mirrors(r, RunTrace(s, DistWrites(dist, st.dist) + VcpuWrites(mpidrs, st.vcpus)))
    ensures |mpidrs| != |st.vcpus| ==>
      var run := RunTrace(s, DistWrites(dist, st.dist));
      && r.store == run.store
      && r.res.Err?
      && r.res.error == (if run.failure.Some? then AttrError(run.failure.value.0, run.failure.value.1)
                         else InconsistentVcpuCount)
  {
    RunTraceAppend(s, DistWrites(dist, st.dist), VcpuWrites(mpidrs, st.vcpus));
    var d := SetRegs(s, dist.engine, dist.regs, st.dist, 0);
    if d.res.Err? then d
    else if |mpidrs| != |st.vcpus| then Step(d.store, Err(InconsistentVcpuCount))
    else RestoreVcpus(d.store, mpidrs, st.vcpus)
  }

  /** On a vCPU-count mismatch, every call made is a distributor set: no CPU interface is touched. */
  lemma RestoreMismatchWritesOnlyDistributor(s: Store, dist: DistTable, mpidrs: seq<bv64>, st: Gicv2State)
    requires |mpidrs| != |st.vcpus|
    ensures var r := RestoreState(s, dist, mpidrs, st);
      && |s.log| <= |r.store.log|
      && forall i :: |s.log| <= i < |r.store.log| ==>
           r.store.log[i].Set? && r.store.log[i].key.group == GrpDistRegs
  {
    RunOfSetsLogsSets(s, DistWrites(dist, st.dist), GrpDistRegs);
  }

  /** Writing back saved CPU interfaces restores each of them. */
  lemma {:induction false} VcpuWritesRestore(cells: map<AttrKey, Cell>, mpidrs: seq<bv64>)
    requires AllUsable(cells, VcpuReads(mpidrs))
    ensures Restores(cells, VcpuWrites(mpidrs, SavedVcpus(cells, mpidrs)))
    decreases |mpidrs|
  {
    if mpidrs != [] {
      var saved := SavedVcpus(cells, mpidrs);
      AllUsableSplit(cells, IccReads(mpidrs[0]), VcpuReads(mpidrs[1..]));
      WritesOfSnapshotRestore(cells, IccEngine, MainIccRegs, mpidrs[0]);
      VcpuWritesRestore(cells, mpidrs[1..]);
      assert saved[1..] == SavedVcpus(cells, mpidrs[1..]);
      RestoresJoin(cells, IccWrites(mpidrs[0], saved[0].icc), VcpuWrites(mpidrs[1..], saved[1..]));
    }
  }

  /**
   * The round trip: restoring, for the same vCPUs, the state a successful save
   * returned succeeds and leaves every register as it was before the save.
   */
  lemma SaveRestoreRoundTrip(s: Store, dist: DistTable, mpidrs: seq<bv64>)
    requires SaveState(s, dist, mpidrs).res.Ok?
    ensures var saved := SaveState(s, dist, mpidrs);
      var back := RestoreState(saved.store, dist, mpidrs, saved.res.value);
      back.res.Ok? && back.store.cells == s.cells
  {
    var saved := SaveState(s, dist, mpidrs);
    var st := saved.res.value;
    ReadOnlyJoin(VcpuReads(mpidrs), DistReads(dist));
    RunReadOnly(s, SaveTrace(dist, mpidrs));
    AllUsableSplit(s.cells, VcpuReads(mpidrs), DistReads(dist));
    WritesOfSnapshotRestore(s.cells, dist.engine, dist.regs, 0);
    VcpuWritesRestore(s.cells, mpidrs);
    RestoresJoin(s.cells, DistWrites(dist, st.dist), VcpuWrites(mpidrs, st.vcpus));
    RunRestoring(saved.store, DistWrites(dist, st.dist) + VcpuWrites(mpidrs, st.vcpus));
  }

  /**
   * A vCPU whose CPU interface cannot be reached (KVM has no such vCPU yet)
   * makes saving fail on the very first get, with that call's code, as a read,
   * in the CPU-register group.
   */
  lemma SaveReportsFirstIccFault(s: Store, dist: DistTable, mpidrs: seq<bv64>)
    requires mpidrs != [] && !Usable(s.cells, IccKey(0x00, mpidrs[0]))
    ensures SaveState(s, dist, mpidrs).res
         == Err(DeviceAttribute(FaultCode(s, IccKey(0x00, mpidrs[0])), false, GrpCpuRegs))
  {
    IccReadsLayout(mpidrs[0]);
    var t := SaveTrace(dist, mpidrs);
    assert t[0] == IccReads(mpidrs[0])[0];
    assert t[0] == Get(IccKey(0x00, mpidrs[0]));
  }
}

=== FILE: gicv3.dfy ===
/**
 * Saving and restoring a GICv3 interrupt controller (`gicv3/regs`): flush the
 * redistributors' pending tables, then per vCPU its redistributor and its
 * CPU-interface system registers, then the distributor; restoring writes the
 * distributor, checks the vCPU count, then per vCPU the redistributor and the
 * CPU interface.
 *
 * The register lists of the distributor, the redistributors and the GICv3 CPU
 * interface (`dist_regs`, `redist_regs`, `icc_regs` of this directory) are not
 * part of this model; they enter as the `Gicv3Layout` parameter, each table
 * fixed to its KVM attribute group.
 */
module Gicv3 {
  import opened Wrappers
  import opened KvmDevice
  import opened RegEngine

  datatype Tables = Tables(dist: RegTable, redist: RegTable, icc: RegTable)

  /**
   * The three register tables a GICv3 save/restore walks, each in its KVM
   * group: distributor, redistributor (`KVM_DEV_ARM_VGIC_GRP_REDIST_REGS`) and
   * CPU-interface system registers (`KVM_DEV_ARM_VGIC_GRP_CPU_SYSREGS`).
   */
  type Gicv3Layout = l: Tables | InGroup(l.dist, GrpDistRegs) && InGroup(l.redist, GrpRedistRegs) && InGroup(l.icc, GrpCpuSysregs)
    witness Tables(
      RegTable(Engine(GrpDistRegs, 4, (offset, mpidr) => offset), []),
      RegTable(Engine(GrpRedistRegs, 4, (offset, mpidr) => offset), []),
      RegTable(Engine(GrpCpuSysregs, 8, (offset, mpidr) => offset), []))

  /** The interrupt-controller state of one vCPU: redistributor, then CPU interface. */
  datatype GicVcpuState = GicVcpuState(rdist: seq<RegState>, icc: seq<RegState>)

  /** The saved controller (`GicState`): distributor registers, then one entry per vCPU. */
  datatype GicState = GicState(dist: seq<RegState>, vcpus: seq<GicVcpuState>)

  /** The control attribute that flushes pending tables to guest memory (`KVM_DEV_ARM_VGIC_SAVE_PENDING_TABLES`). */
  const FlushKey: AttrKey := AttrKey(GrpCtrl, SavePendingTables)

  /**
   * `save_pending_tables`: one control call; a failure is reported as a
   * write in the control group.
   */
  function SavePendingTablesCall(s: Store): (r: Step<()>)
    ensures Mirrors(r, RunTrace(s, [Command(FlushKey)]))
    ensures r.store.cells == s.cells
    ensures r.res.Err? ==> r.res.error == DeviceAttribute(FaultCode(s, FlushKey), true, GrpCtrl)
  {
    var (s1, res) := ControlAttr(s, FlushKey);
    if res.Err? then Step(s1, Err(DeviceAttribute(res.error, true, GrpCtrl))) else Step(s1, Ok(()))
  }

  /** The gets of one table for one vCPU (or, for the distributor, for none). */
  function TableReads(t: RegTable, mpidr: bv64): seq<Access>
  {
    RegsReads(t.engine, t.regs, mpidr)
  }

  /** The sets of one table for one vCPU. */
  function TableWrites(t: RegTable, vals: seq<RegState>, mpidr: bv64): seq<Access>
  {
    RegsWrites(t.engine, t.regs, vals, mpidr)
  }

  /** The gets of one vCPU: its redistributor, then its CPU interface. */
  function OneVcpuReads(lay: Gicv3Layout, mpidr: bv64): (t: seq<Access>)
    ensures ReadOnly(t)
  {
    ReadOnlyJoin(TableReads(lay.redist, mpidr), TableReads(lay.icc, mpidr));
    TableReads(lay.redist, mpidr) + TableReads(lay.icc, mpidr)
  }

  /** The gets of every vCPU, in `mpidrs` order. */
  function VcpuReads(lay: Gicv3Layout, mpidrs: seq<bv64>): (t: seq<Access>)
    ensures ReadOnly(t)
    decreases |mpidrs|
  {
    if mpidrs == [] then []
    else
      ReadOnlyJoin(OneVcpuReads(lay, mpidrs[0]), VcpuReads(lay, mpidrs[1..]));
      OneVcpuReads(lay, mpidrs[0]) + VcpuReads(lay, mpidrs[1..])
  }

  /** The calls of `save_state`, in order: the flush, every vCPU, then the distributor. */
  function SaveTrace(lay: Gicv3Layout, mpidrs: seq<bv64>): seq<Access>
  {
    [Command(FlushKey)] + VcpuReads(lay, mpidrs) + TableReads(lay.dist, 0)
  }

  /** What one vCPU's registers hold. */
  function VcpuSnapshot(cells: map<AttrKey, Cell>, lay: Gicv3Layout, mpidr: bv64): GicVcpuState
  {
    GicVcpuState(
      Snapshot(cells, lay.redist.engine, lay.redist.regs, mpidr),
      Snapshot(cells, lay.icc.engine, lay.icc.regs, mpidr))
  }

  /** What every vCPU's registers hold, one entry per `mpidrs` element. */
  function SavedVcpus(cells: map<AttrKey, Cell>, lay: Gicv3Layout, mpidrs: seq<bv64>): (v: seq<GicVcpuState>)
    ensures |v| == |mpidrs|
    ensures forall i :: 0 <= i < |mpidrs| ==> v[i] == VcpuSnapshot(cells, lay, mpidrs[i])
  {
    seq(|mpidrs|, i requires 0 <= i < |mpidrs| => VcpuSnapshot(cells, lay, mpidrs[i]))
  }

  lemma SavedVcpusCons(cells: map<AttrKey, Cell>, lay: Gicv3Layout, mpidrs: seq<bv64>)
    requires mpidrs != []
    ensures SavedVcpus(cells, lay, mpidrs) == [VcpuSnapshot(cells, lay, mpidrs[0])] + SavedVcpus(cells, lay, mpidrs[1..])
  {
    var v := SavedVcpus(cells, lay, mpidrs);
    assert v[1..] == SavedVcpus(cells, lay, mpidrs[1..]);
    assert v == [v[0]] + v[1..];
  }

  /** One iteration of the save loop: `get_redist_regs`, then `get_icc_regs`. */
  function SaveVcpu(s: Store, lay: Gicv3Layout, mpidr: bv64): (r: Step<GicVcpuState>)
    ensures Mirrors(r, RunTrace(s, OneVcpuReads(lay, mpidr)))
    ensures r.store.cells == s.cells
    ensures r.res.Ok? ==> r.res.value == VcpuSnapshot(s.cells, lay, mpidr)
  {
    RunTraceAppend(s, TableReads(lay.redist, mpidr), TableReads(lay.icc, mpidr));
    var rd := GetRegs(s, lay.redist.engine, lay.redist.regs, mpidr);
    if rd.res.Err? then Step(rd.store, Err(rd.res.error))
    else
      var icc := GetRegs(rd.store, lay.icc.engine, lay.icc.regs, mpidr);
      if icc.res.Err? then Step(icc.store, Err(icc.res.error))
      else Step(icc.store, Ok(GicVcpuState(rd.res.value, icc.res.value)))
  }

  /** The loop of `save_state`, stopping at the first error. */
  function SaveVcpus(s: Store, lay: Gicv3Layout, mpidrs: seq<bv64>): (r: Step<seq<GicVcpuState>>)
    ensures Mirrors(r, RunTrace(s, VcpuReads(lay, mpidrs)))
    ensures r.store.cells == s.cells
    ensures r.res.Ok? ==> r.res.value == SavedVcpus(s.cells, lay, mpidrs)
    decreases |mpidrs|
  {
    if mpidrs == [] then Step(s, Ok([]))
    else
      RunTraceAppend(s, OneVcpuReads(lay, mpidrs[0]), VcpuReads(lay, mpidrs[1..]));
      var head := SaveVcpu(s, lay, mpidrs[0]);
      if head.res.Err? then Step(head.store, Err(head.res.error))
      else
        var rest := SaveVcpus(head.store, lay, mpidrs[1..]);
        if rest.res.Err? then Step(rest.store, Err(rest.res.error))
        else
          SavedVcpusCons(s.cells, lay, mpidrs);
          Step(rest.store, Ok([head.res.value] + rest.res.value))
  }

  /**
   * `save_state`: the flush, every vCPU (redistributor, then CPU interface),
   * then the distributor; it fails with the first failing call's error. On
   * success it has made exactly the calls of `SaveTrace` and returns what the
   * registers hold. Saving changes no register.
   */
  function SaveState(s: Store, lay: Gicv3Layout, mpidrs: seq<bv64>): (r: Step<GicState>)
    ensures Mirrors(r, RunTrace(s, SaveTrace(lay, mpidrs)))
    ensures r.store.cells == s.cells
    ensures r.res.Ok? ==> r.store.log == s.log + SaveTrace(lay, mpidrs)
    ensures r.res.Ok? ==>
      r.res.value == GicState(Snapshot(s.cells, lay.dist.engine, lay.dist.regs, 0), SavedVcpus(s.cells, lay, mpidrs))
  {
    RunTraceAppend(s, [Command(FlushKey)], VcpuReads(lay, mpidrs));
    RunTraceAppend(s, [Command(FlushKey)] + VcpuReads(lay, mpidrs), TableReads(lay.dist, 0));
    var flushed := SavePendingTablesCall(s);
    if flushed.res.Err? then Step(flushed.store, Err(flushed.res.error))
    else
      RunTraceAppend(flushed.store, VcpuReads(lay, mpidrs), TableReads(lay.dist, 0));
      var vcpus := SaveVcpus(flushed.store, lay, mpidrs);
      if vcpus.res.Err? then Step(vcpus.store, Err(vcpus.res.error))
      else
        var d := GetRegs(vcpus.store, lay.dist.engine, lay.dist.regs, 0);
        if d.res.Err? then Step(d.store, Err(d.res.error))
        else Step(d.store, Ok(GicState(d.res.value, vcpus.res.value)))
  }

  /** The sets of one vCPU: its redistributor, then its CPU interface. */
  function OneVcpuWrites(lay: Gicv3Layout, mpidr: bv64, v: GicVcpuState): seq<Access>
  {
    TableWrites(lay.redist, v.rdist, mpidr) + TableWrites(lay.icc, v.icc, mpidr)
  }

  /** The sets of every vCPU, pairing `mpidrs` with `vcpus` position by position. */
  function VcpuWrites(lay: Gicv3Layout, mpidrs: seq<bv64>, vcpus: seq<GicVcpuState>): seq<Access>
    decreases |mpidrs|
  {
    if mpidrs == [] || vcpus == [] then []
    else OneVcpuWrites(lay, mpidrs[0], vcpus[0]) + VcpuWrites(lay, mpidrs[1..], vcpus[1..])
  }

  /** One iteration of the restore loop: `set_redist_regs`, then `set_icc_regs`. */
  function RestoreVcpu(s: Store, lay: Gicv3Layout, mpidr: bv64, v: GicVcpuState): (r: Step<()>)
    ensures Mirrors(r, RunTrace(s, OneVcpuWrites(lay, mpidr, v)))
  {
    RunTraceAppend(s, TableWrites(lay.redist, v.rdist, mpidr), TableWrites(lay.icc, v.icc, mpidr));
    var rd := SetRegs(s, lay.redist.engine, lay.redist.regs, v.rdist, mpidr);
    if rd.res.Err? then rd
    else SetRegs(rd.store, lay.icc.engine, lay.icc.regs, v.icc, mpidr)
  }

  /** The loop of `restore_state`, stopping at the first error. */
  function RestoreVcpus(s: Store, lay: Gicv3Layout, mpidrs: seq<bv64>, vcpus: seq<GicVcpuState>): (r: Step<()>)
    ensures Mirrors(r, RunTrace(s, VcpuWrites(lay, mpidrs, vcpus)))
    decreases |mpidrs|
  {
    if mpidrs == [] || vcpus == [] then Step(s, Ok(()))
    else
      RunTraceAppend(s, OneVcpuWrites(lay, mpidrs[0], vcpus[0]), VcpuWrites(lay, mpidrs[1..], vcpus[1..]));
      var head := RestoreVcpu(s, lay, mpidrs[0], vcpus[0]);
      if head.res.Err? then head
      else RestoreVcpus(head.store, lay, mpidrs[1..], vcpus[1..])
  }

  /**
   * `restore_state`: the distributor first; then, if the vCPU count differs
   * from the saved one, `InconsistentVcpuCount` with only the distributor
   * written; otherwise every vCPU in `mpidrs` order. No flush on this path.
   */
  function RestoreState(s: Store, lay: Gicv3Layout, mpidrs: seq<bv64>, st: GicState): (r: Step<()>)
    ensures |mpidrs| == |st.vcpus| ==>
      Mirrors(r, RunTrace(s, TableWrites(lay.dist, st.dist, 0) + VcpuWrites(lay, mpidrs, st.vcpus)))
    ensures |mpidrs| != |st.vcpus| ==>
      var run := RunTrace(s, TableWrites(lay.dist, st.dist, 0));
      && r.store == run.store
      && r.res.Err?
      && r.res.error == (if run.failure.Some? then AttrError(run.failure.value.0, run.failure.value.1)
                         else InconsistentVcpuCount)
  {
    RunTraceAppend(s, TableWrites(lay.dist, st.dist, 0), VcpuWrites(lay, mpidrs, st.vcpus));
    var d := SetRegs(s, lay.dist.engine, lay.dist.regs, st.dist, 0);
    if d.res.Err? then d
    else if |mpidrs| != |st.vcpus| then Step(d.store, Err(InconsistentVcpuCount))
    else RestoreVcpus(d.store, lay, mpidrs, st.vcpus)
  }

  /** On a vCPU-count mismatch, every call made is a distributor set: no vCPU register is touched. */
  lemma RestoreMismatchWritesOnlyDistributor(s: Store, lay: Gicv3Layout, mpidrs: seq<bv64>, st: GicState)
    requires |mpidrs| != |st.vcpus|
    ensures var r := RestoreState(s, lay, mpidrs, st);
      && |s.log| <= |r.store.log|
      && forall i :: |s.log| <= i < |r.store.log| ==>
           r.store.log[i].Set? && r.store.log[i].key.group == GrpDistRegs
  {
    RunOfSetsLogsSets(s, TableWrites(lay.dist, st.dist, 0), GrpDistRegs);
  }

  /** Writing back saved vCPU registers restores each of them. */
  lemma {:induction false} VcpuWritesRestore(cells: map<AttrKey, Cell>, lay: Gicv3Layout, mpidrs: seq<bv64>)
    requires AllUsable(cells, VcpuReads(lay, mpidrs))
    ensures Restores(cells, VcpuWrites(lay, mpidrs, SavedVcpus(cells, lay, mpidrs)))
    decreases |mpidrs|
  {
    if mpidrs != [] {
      var m := mpidrs[0];
      var saved := SavedVcpus(cells, lay, mpidrs);
      AllUsableSplit(cells, OneVcpuReads(lay, m), VcpuReads(lay, mpidrs[1..]));
      AllUsableSplit(cells, TableReads(lay.redist, m), TableReads(lay.icc, m));
      WritesOfSnapshotRestore(cells, lay.redist.engine, lay.redist.regs, m);
      WritesOfSnapshotRestore(cells, lay.icc.engine, lay.icc.regs, m);
      RestoresJoin(cells, TableWrites(lay.redist, saved[0].rdist, m), TableWrites(lay.icc, saved[0].icc, m));
      VcpuWritesRestore(cells, lay, mpidrs[1..]);
      assert saved[1..] == SavedVcpus(cells, lay, mpidrs[1..]);
      RestoresJoin(cells, OneVcpuWrites(lay, m, saved[0]), VcpuWrites(lay, mpidrs[1..], saved[1..]));
    }
  }

  /**
   * The round trip: restoring, for the same vCPUs, the state a successful save
   * returned succeeds and leaves every register as it was before the save.
   */
  lemma SaveRestoreRoundTrip(s: Store, lay: Gicv3Layout, mpidrs: seq<bv64>)
    requires SaveState(s, lay, mpidrs).res.Ok?
    ensures var saved := SaveState(s, lay, mpidrs);
      var back := RestoreState(saved.store, lay, mpidrs, saved.res.value);
      back.res.Ok? && back.store.cells == saved.store.cells
    ensures var saved := SaveState(s, lay, mpidrs);
      RestoreState(saved.store, lay, mpidrs, saved.res.value).store.cells == s.cells
  {
    var saved := SaveState(s, lay, mpidrs);
    var st := saved.res.value;
    var vr := VcpuReads(lay, mpidrs);
    var dist := TableReads(lay.dist, 0);
    ReadOnlyJoin([Command(FlushKey)], vr);
    ReadOnlyJoin([Command(FlushKey)] + vr, dist);
    RunReadOnly(s, SaveTrace(lay, mpidrs));
    AllUsableSplit(s.cells, [Command(FlushKey)] + vr, dist);
    AllUsableSplit(s.cells, [Command(FlushKey)], vr);
    WritesOfSnapshotRestore(s.cells, lay.dist.engine, lay.dist.regs, 0);
    VcpuWritesRestore(s.cells, lay, mpidrs);
    RestoresJoin(s.cells, TableWrites(lay.dist, st.dist, 0), VcpuWrites(lay, mpidrs, st.vcpus));
    RunRestoring(saved.store, TableWrites(lay.dist, st.dist, 0) + VcpuWrites(lay, mpidrs, st.vcpus));
  }

  /** A failing flush ends the save at once: one control call made, reported as a write in the control group. */
  lemma SaveStopsOnFlushFailure(s: Store, lay: Gicv3Layout, mpidrs: seq<bv64>)
    requires !Usable(s.cells, FlushKey)
    ensures SaveState(s, lay, mpidrs).res == Err(DeviceAttribute(FaultCode(s, FlushKey), true, GrpCtrl))
    ensures SaveState(s, lay, mpidrs).store.log == s.log + [Command(FlushKey)]
  {
  }

  /**
   * After a successful flush, a vCPU whose redistributor cannot be reached
   * makes saving fail on its first redistributor get, as a read in the
   * redistributor's group.
   */
  lemma SaveReportsFirstRedistFault(s: Store, lay: Gicv3Layout, mpidrs: seq<bv64>)
    requires Usable(s.cells, FlushKey)
    requires mpidrs != [] && lay.redist.regs != [] && ChunkOffsets(lay.redist.engine, lay.redist.regs[0]) != []
    requires !Usable(s.cells, Key(lay.redist.engine, ChunkOffsets(lay.redist.engine, lay.redist.regs[0])[0], mpidrs[0]))
    ensures var k := Key(lay.redist.engine, ChunkOffsets(lay.redist.engine, lay.redist.regs[0])[0], mpidrs[0]);
      SaveState(s, lay, mpidrs).res == Err(DeviceAttribute(FaultCode(s, k), false, GrpRedistRegs))
  {
    var e := lay.redist.engine;
    var m := mpidrs[0];
    var k := Key(e, ChunkOffsets(e, lay.redist.regs[0])[0], m);
    var t := SaveTrace(lay, mpidrs);
    assert TableReads(lay.redist, m)[0] == Get(k);
    assert OneVcpuReads(lay, m)[0] == Get(k);
    assert t[1] == Get(k);
    var (s1, err) := Perform(s, t[0]);
    assert t[1..][0] == Get(k);
  }
}

=== FILE: icc_regs.dfy ===
/**
 * The GICv2 CPU-interface registers: their descriptor table, the packing of
 * `(cpuid, offset)` into a KVM device-attribute id, and get/set of one vCPU's
 * CPU-interface state through the register engine.
 */
module IccRegs {
  import opened Wrappers
  import opened KvmDevice
  import opened RegEngine

  /** `MAIN_VGIC_ICC_REGS`: four 4-byte registers. */
  const MainIccRegs: seq<SimpleReg> := [RegDesc(0x00, 4), RegDesc(0x04, 4), RegDesc(0x08, 4), RegDesc(0x1c, 4)]

  /** Where the vCPU selector and the register offset sit in the attribute id. */
  const CpuidShift: bv64 := 32
  const OffsetShift: bv64 := 0

  /** A `kvm_device_attr` without its buffer address. */
  datatype DeviceAttr = DeviceAttr(group: nat, attr: bv64, flags: nat)

  /**
   * The attribute id of `VgicSysRegEngine::kvm_device_attr`: the vCPU selector
   * shifted into bits 32..39, the register offset in bits 0..31.
   */
  function PackAttr(offset: bv64, cpuid: bv64): bv64
  {
    ((cpuid << CpuidShift) & (0xff << CpuidShift)) | ((offset << OffsetShift) & (0xffff_ffff << OffsetShift))
  }

  /** `VgicSysRegEngine::kvm_device_attr`: a CPU-register attribute with no flags. */
  function KvmDeviceAttr(offset: bv64, cpuid: bv64): (a: DeviceAttr)
    ensures a.group == GrpCpuRegs && a.flags == 0
    ensures a.attr == PackAttr(offset, cpuid)
  {
    DeviceAttr(GrpCpuRegs, PackAttr(offset, cpuid), 0)
  }

  /** Split an attribute id back into `(offset, cpuid)`. */
  function DecodeAttr(attr: bv64): (bv64, bv64)
  {
    (attr & 0xffff_ffff, attr >> CpuidShift)
  }

  /** The offset survives modulo 2^32 in the low half. */
  lemma PackedOffset(offset: bv64, cpuid: bv64)
    ensures PackAttr(offset, cpuid) & 0xffff_ffff == offset & 0xffff_ffff
  {
  }

  /** The selector survives modulo 256 in bits 32..39, and nothing lies above them. */
  lemma PackedCpuid(offset: bv64, cpuid: bv64)
    ensures PackAttr(offset, cpuid) >> CpuidShift == cpuid & 0xff
    ensures PackAttr(offset, cpuid) >> 40 == 0
  {
  }

  /** Decoding recovers the offset modulo 2^32 and the selector modulo 256. */
  lemma DecodeKvmDeviceAttr(offset: bv64, cpuid: bv64)
    ensures DecodeAttr(KvmDeviceAttr(offset, cpuid).attr) == (offset & 0xffff_ffff, cpuid & 0xff)
  {
    PackedOffset(offset, cpuid);
    PackedCpuid(offset, cpuid);
  }

  /** Within the field widths the packing is injective: distinct registers or vCPUs never share an id. */
  lemma KvmDeviceAttrInjective(o1: bv64, c1: bv64, o2: bv64, c2: bv64)
    requires o1 < 0x1_0000_0000 && o2 < 0x1_0000_0000 && c1 < 0x100 && c2 < 0x100
    ensures KvmDeviceAttr(o1, c1).attr == KvmDeviceAttr(o2, c2).attr <==> o1 == o2 && c1 == c2
  {
    if PackAttr(o1, c1) == PackAttr(o2, c2) {
      PackedOffset(o1, c1);
      PackedOffset(o2, c2);
      PackedCpuid(o1, c1);
      PackedCpuid(o2, c2);
      FitsMask(o1, 0xffff_ffff);
      FitsMask(o2, 0xffff_ffff);
      FitsMask(c1, 0xff);
      FitsMask(c2, 0xff);
    }
  }

  /** A value no wider than an all-ones mask passes the mask unchanged. */
  lemma FitsMask(x: bv64, mask: bv64)
    requires mask == 0xff || mask == 0xffff_ffff
    requires x <= mask
    ensures x & mask == x
  {
  }

  /** The CPU-interface register group: `KVM_DEV_ARM_VGIC_GRP_CPU_REGS`, `u64` chunks. */
  const IccEngine: Engine := Engine(GrpCpuRegs, 8, PackAttr)

  /** The attribute the register at `offset` of vCPU `mpidr` is reached through. */
  function IccKey(offset: bv64, mpidr: bv64): (k: AttrKey)
    ensures k == AttrKey(GrpCpuRegs, PackAttr(offset, mpidr))
  {
    Key(IccEngine, offset, mpidr)
  }

  /** Every key the engine path uses is the `kvm_device_attr` record's group and id; its flags are 0. */
  lemma IccKeyIsKvmDeviceAttr(offset: bv64, mpidr: bv64)
    ensures IccKey(offset, mpidr) == AttrKey(KvmDeviceAttr(offset, mpidr).group, KvmDeviceAttr(offset, mpidr).attr)
    ensures KvmDeviceAttr(offset, mpidr).flags == 0
  {
  }

  /** The CPU-interface state of one vCPU (`VgicSysRegsState`). */
  datatype SysRegsState = SysRegsState(main: seq<RegState>, ap: seq<Option<RegState>>)

  /** The calls that read one vCPU's CPU-interface registers. */
  function IccReads(mpidr: bv64): seq<Access>
  {
    RegsReads(IccEngine, MainIccRegs, mpidr)
  }

  /** The calls that write `st` back to one vCPU's CPU-interface registers. */
  function IccWrites(mpidr: bv64, st: SysRegsState): (t: seq<Access>)
    ensures SetsIn(t, GrpCpuRegs)
  {
    RegsWrites(IccEngine, MainIccRegs, st.main, mpidr)
  }

  /** What one vCPU's CPU-interface registers hold. */
  function IccSnapshot(cells: map<AttrKey, Cell>, mpidr: bv64): SysRegsState
  {
    SysRegsState(Snapshot(cells, IccEngine, MainIccRegs, mpidr), [])
  }

  /** Each table register is one `u64` chunk at its own offset. */
  lemma IccChunks()
    ensures forall i :: 0 <= i < |MainIccRegs| ==>
              ChunkOffsets(IccEngine, MainIccRegs[i]) == [MainIccRegs[i].offset as bv64]
  {
    forall i | 0 <= i < |MainIccRegs|
      ensures ChunkOffsets(IccEngine, MainIccRegs[i]) == [MainIccRegs[i].offset as bv64]
    {
      var r := MainIccRegs[i];
      assert Offsets(r.offset + 8, r.offset + 4, 8) == [];
    }
  }

  /** The table: four registers at offsets 0x00, 0x04, 0x08 and 0x1c, four bytes each. */
  lemma IccTableShape()
    ensures |MainIccRegs| == 4
    ensures forall i :: 0 <= i < 4 ==> MainIccRegs[i].size == 4
    ensures MainIccRegs[0].offset == 0x00 && MainIccRegs[1].offset == 0x04
    ensures MainIccRegs[2].offset == 0x08 && MainIccRegs[3].offset == 0x1c
  {
  }

  /** Reading one vCPU's CPU interface is one get per table register, in table order. */
  lemma IccReadsLayout(mpidr: bv64)
    ensures |IccReads(mpidr)| == |MainIccRegs|
    ensures forall i :: 0 <= i < |MainIccRegs| ==>
              IccReads(mpidr)[i] == Get(IccKey(MainIccRegs[i].offset as bv64, mpidr))
  {
    IccChunks();
    SingleChunkReads(IccEngine, MainIccRegs, mpidr);
  }

  /** A snapshot of one vCPU's CPU interface holds one chunk per table register, in table order. */
  lemma IccSnapshotLayout(cells: map<AttrKey, Cell>, mpidr: bv64)
    ensures |IccSnapshot(cells, mpidr).main| == |MainIccRegs|
    ensures forall i :: 0 <= i < |MainIccRegs| ==>
              IccSnapshot(cells, mpidr).main[i] == RegState([CellValue(cells, IccKey(MainIccRegs[i].offset as bv64, mpidr))])
  {
    IccChunks();
  }

  /**
   * `get_icc_regs`: the main registers in table order through the engine, an
   * empty list of active-priority registers; the engine's error as it comes.
   */
  function GetIccRegs(s: Store, mpidr: bv64): (r: Step<SysRegsState>)
    ensures Mirrors(r, RunTrace(s, IccReads(mpidr)))
    ensures r.store.cells == s.cells
    ensures r.res.Ok? ==> r.res.value == IccSnapshot(s.cells, mpidr) && r.res.value.ap == []
  {
    var main := GetRegs(s, IccEngine, MainIccRegs, mpidr);
    if main.res.Err? then Step(main.store, Err(main.res.error))
    else Step(main.store, Ok(SysRegsState(main.res.value, [])))
  }

  /** `set_icc_regs`: writes the main registers against the table; the engine's error as it comes. */
  function SetIccRegs(s: Store, mpidr: bv64, st: SysRegsState): (r: Step<()>)
    ensures Mirrors(r, RunTrace(s, IccWrites(mpidr, st)))
  {
    var res := SetRegs(s, IccEngine, MainIccRegs, st.main, mpidr);
    if res.res.Err? then Step(res.store, Err(res.res.error)) else Step(res.store, Ok(()))
  }

  /** `set_icc_regs` never looks at the active-priority registers. */
  lemma SetIccRegsIgnoresAp(s: Store, mpidr: bv64, st: SysRegsState, ap: seq<Option<RegState>>)
    ensures SetIccRegs(s, mpidr, st) == SetIccRegs(s, mpidr, st.(ap := ap))
  {
  }

  /** Every call of the CPU-interface path, get or set, uses the CPU-register group. */
  lemma IccCallsUseCpuRegsGroup(mpidr: bv64, st: SysRegsState)
    ensures forall i :: 0 <= i < |IccReads(mpidr)| ==> IccReads(mpidr)[i].key.group == GrpCpuRegs
    ensures forall i :: 0 <= i < |IccWrites(mpidr, st)| ==>
      IccWrites(mpidr, st)[i].Set? && IccWrites(mpidr, st)[i].key.group == GrpCpuRegs
  {
  }

  /** Setting what a get returned succeeds and leaves every register as it was. */
  lemma IccRoundTrip(s: Store, mpidr: bv64)
    requires GetIccRegs(s, mpidr).res.Ok?
    ensures SetIccRegs(GetIccRegs(s, mpidr).store, mpidr, GetIccRegs(s, mpidr).res.value).res.Ok?
    ensures SetIccRegs(GetIccRegs(s, mpidr).store, mpidr, GetIccRegs(s, mpidr).res.value).store.cells == s.cells
  {
    GetThenSetRestores(s, IccEngine, MainIccRegs, mpidr);
  }
}

=== FILE: kvm_device.dfy ===
/**
 * The hypervisor's device-attribute interface, as an abstract store.
 *
 * A VGIC device is a map from `(group, attr)` keys to cells; a cell holds a
 * register value or a fault the hypervisor reports for that attribute, and a
 * key the device does not implement fails with the store's `absent` code.
 * Every primitive call is appended to the store's log, so the order of calls
 * is observable. `RunTrace` is the reference semantics of a flat sequence of
 * calls: perform them in order and stop at the first that fails.
 */
module KvmDevice {
  import opened Wrappers

  /** Attribute groups of the ARM VGIC device in the Linux KVM API (arm64 `kvm.h`). */
  const GrpDistRegs: nat := 1
  const GrpCpuRegs: nat := 2
  const GrpCtrl: nat := 4
  const GrpRedistRegs: nat := 5
  const GrpCpuSysregs: nat := 6

  /** The control attribute that flushes the redistributors' pending tables to guest memory. */
  const SavePendingTables: bv64 := 3

  /** A host error number. */
  type Errno = int

  /** The `(group, attr)` pair that names one device attribute. */
  datatype AttrKey = AttrKey(group: nat, attr: bv64)

  datatype Cell = Value(v: bv64) | Fault(code: Errno)

  /** One primitive call: a get, a set carrying a value, or a control set carrying none. */
  datatype Access = Get(key: AttrKey) | Set(key: AttrKey, value: bv64) | Command(key: AttrKey)

  datatype Store = Store(cells: map<AttrKey, Cell>, absent: Errno, log: seq<Access>)

  /** Does an access to `k` succeed? */
  predicate Usable(cells: map<AttrKey, Cell>, k: AttrKey)
  {
    k in cells && cells[k].Value?
  }

  /** The value a successful get of `k` returns. */
  function CellValue(cells: map<AttrKey, Cell>, k: AttrKey): bv64
  {
    if Usable(cells, k) then cells[k].v else 0
  }

  /** The code a failing access to `k` reports. */
  function FaultCode(s: Store, k: AttrKey): Errno
  {
    if k in s.cells && s.cells[k].Fault? then s.cells[k].code else s.absent
  }

  /** `KVM_GET_DEVICE_ATTR`. */
  function GetAttr(s: Store, k: AttrKey): (r: (Store, Result<bv64, Errno>))
    ensures r.0 == s.(log := s.log + [Get(k)])
    ensures r.1.Ok? <==> Usable(s.cells, k)
    ensures r.1.Ok? ==> r.1.value == s.cells[k].v
    ensures r.1.Err? ==> r.1.error == FaultCode(s, k)
  {
    var s' := s.(log := s.log + [Get(k)]);
    if Usable(s.cells, k) then (s', Ok(s.cells[k].v)) else (s', Err(FaultCode(s, k)))
  }

  /** `KVM_SET_DEVICE_ATTR` with a value: on success the attribute holds `v`. */
  function SetAttr(s: Store, k: AttrKey, v: bv64): (r: (Store, Result<(), Errno>))
    ensures r.0.log == s.log + [Set(k, v)] && r.0.absent == s.absent
    ensures r.1.Ok? <==> Usable(s.cells, k)
    ensures r.1.Ok? ==> r.0.cells == s.cells[k := Value(v)]
    ensures r.1.Err? ==> r.0.cells == s.cells && r.1.error == FaultCode(s, k)
  {
    var logged := s.log + [Set(k, v)];
    if Usable(s.cells, k) then (Store(s.cells[k := Value(v)], s.absent, logged), Ok(()))
    else (s.(log := logged), Err(FaultCode(s, k)))
  }

  /** `KVM_SET_DEVICE_ATTR` on a control attribute: it changes no register. */
  function ControlAttr(s: Store, k: AttrKey): (r: (Store, Result<(), Errno>))
    ensures r.0 == s.(log := s.log + [Command(k)])
    ensures r.1.Ok? <==> Usable(s.cells, k)
    ensures r.1.Err? ==> r.1.error == FaultCode(s, k)
  {
    var s' := s.(log := s.log + [Command(k)]);
    if Usable(s.cells, k) then (s', Ok(())) else (s', Err(FaultCode(s, k)))
  }

  /** One access through the primitive it names; the error code if it failed. */
  function Perform(s: Store, a: Access): (r: (Store, Option<Errno>))
    ensures r.0.log == s.log + [a] && r.0.absent == s.absent
    ensures r.1.None? <==> Usable(s.cells, a.key)
    ensures r.1.Some? ==> r.1.value == FaultCode(s, a.key) && r.0.cells == s.cells
    ensures !a.Set? ==> r.0.cells == s.cells
    ensures a.Set? && r.1.None? ==> r.0.cells == s.cells[a.key := Value(a.value)]
  {
    match a
    case Get(k) =>
      var (s', res) := GetAttr(s, k);
      (s', if res.Err? then Some(res.error) else None)
    case Set(k, v) =>
      var (s', res) := SetAttr(s, k, v);
      (s', if res.Err? then Some(res.error) else None)
    case Command(k) =>
      var (s', res) := ControlAttr(s, k);
      (s', if res.Err? then Some(res.error) else None)
  }

  /** The store after a run and the failing access with its code, if one failed. */
  datatype Run = Run(store: Store, failure: Option<(Access, Errno)>)

  /**
   * The reference semantics of a sequence of calls: perform them in order and
   * stop at the first failure. The log then holds exactly the calls made.
   */
  function RunTrace(s: Store, t: seq<Access>): (r: Run)
    ensures r.store.absent == s.absent
    ensures r.failure.None? ==> r.store.log == s.log + t
    ensures r.failure.Some? ==> |s.log| < |r.store.log| <= |s.log| + |t|
    ensures r.failure.Some? ==> r.store.log == s.log + t[..|r.store.log| - |s.log|]
    ensures r.failure.Some? ==> r.failure.value.0 == r.store.log[|r.store.log| - 1]
    decreases |t|
  {
    if t == [] then Run(s, None)
    else
      var (s1, err) := Perform(s, t[0]);
      if err.Some? then
        assert s1.log == s.log + t[..1];
        Run(s1, Some((t[0], err.value)))
      else
        var r := RunTrace(s1, t[1..]);
        var n := |r.store.log| - |s1.log|;
        assert r.failure.None? ==> s1.log + t[1..] == s.log + t;
        assert r.failure.Some? ==> s1.log + t[1..][..n] == s.log + t[..n + 1];
        r
  }

  /** Running `t1 + t2` runs `t1`, then `t2` only if `t1` went through. */
  lemma {:induction false} RunTraceAppend(s: Store, t1: seq<Access>, t2: seq<Access>)
    ensures RunTrace(s, t1 + t2) ==
      (var r1 := RunTrace(s, t1); if r1.failure.Some? then r1 else RunTrace(r1.store, t2))
    decreases |t1|
  {
    if t1 != [] {
      assert (t1 + t2)[0] == t1[0];
      assert (t1 + t2)[1..] == t1[1..] + t2;
      var (s1, err) := Perform(s, t1[0]);
      if err.None? {
        RunTraceAppend(s1, t1[1..], t2);
      }
    } else {
      assert t1 + t2 == t2;
    }
  }

  /** Every call of `t` would succeed against `cells`. */
  predicate AllUsable(cells: map<AttrKey, Cell>, t: seq<Access>)
  {
    forall i :: 0 <= i < |t| ==> Usable(cells, t[i].key)
  }

  /** `t` makes no set that carries a value. */
  predicate ReadOnly(t: seq<Access>)
  {
    forall i :: 0 <= i < |t| ==> !t[i].Set?
  }

  /** A read-only run leaves every register as it was, and succeeds exactly when every call can. */
  lemma {:induction false} RunReadOnly(s: Store, t: seq<Access>)
    requires ReadOnly(t)
    ensures RunTrace(s, t).store.cells == s.cells
    ensures RunTrace(s, t).failure.None? <==> AllUsable(s.cells, t)
    decreases |t|
  {
    if t != [] {
      var (s1, err) := Perform(s, t[0]);
      if err.None? {
        RunReadOnly(s1, t[1..]);
        assert AllUsable(s.cells, t) <==> AllUsable(s.cells, t[1..]);
      }
    }
  }

  /** Each call of `t` writes back the value its attribute already holds. */
  predicate Restores(cells: map<AttrKey, Cell>, t: seq<Access>)
  {
    forall i :: 0 <= i < |t| ==> t[i].Set? && Usable(cells, t[i].key) && t[i].value == cells[t[i].key].v
  }

  /** Writing back held values succeeds and leaves every register as it was. */
  lemma {:induction false} RunRestoring(s: Store, t: seq<Access>)
    requires Restores(s.cells, t)
    ensures RunTrace(s, t).failure.None?
    ensures RunTrace(s, t).store.cells == s.cells
    decreases |t|
  {
    if t != [] {
      var (s1, err) := Perform(s, t[0]);
      assert s1.cells == s.cells;
      assert Restores(s1.cells, t[1..]);
      RunRestoring(s1, t[1..]);
    }
  }

  lemma AllUsableSplit(cells: map<AttrKey, Cell>, t1: seq<Access>, t2: seq<Access>)
    ensures AllUsable(cells, t1 + t2) <==> AllUsable(cells, t1) && AllUsable(cells, t2)
  {
    if AllUsable(cells, t1) && AllUsable(cells, t2) {
      forall i | 0 <= i < |t1 + t2| ensures Usable(cells, (t1 + t2)[i].key) {
        if i >= |t1| {
          assert (t1 + t2)[i] == t2[i - |t1|];
        }
      }
    }
    if AllUsable(cells, t1 + t2) {
      forall i | 0 <= i < |t1| ensures Usable(cells, t1[i].key) {
        assert (t1 + t2)[i] == t1[i];
      }
      forall i | 0 <= i < |t2| ensures Usable(cells, t2[i].key) {
        assert (t1 + t2)[|t1| + i] == t2[i];
      }
    }
  }

  lemma ReadOnlyJoin(t1: seq<Access>, t2: seq<Access>)
    requires ReadOnly(t1) && ReadOnly(t2)
    ensures ReadOnly(t1 + t2)
  {
    forall i | 0 <= i < |t1 + t2| ensures !(t1 + t2)[i].Set? {
      if i >= |t1| {
        assert (t1 + t2)[i] == t2[i - |t1|];
      }
    }
  }

  lemma RestoresJoin(cells: map<AttrKey, Cell>, t1: seq<Access>, t2: seq<Access>)
    requires Restores(cells, t1) && Restores(cells, t2)
    ensures Restores(cells, t1 + t2)
  {
    forall i | 0 <= i < |t1 + t2|
      ensures (t1 + t2)[i].Set? && Usable(cells, (t1 + t2)[i].key) &&
              (t1 + t2)[i].value == cells[(t1 + t2)[i].key].v
    {
      if i >= |t1| {
        assert (t1 + t2)[i] == t2[i - |t1|];
      }
    }
  }
}

=== FILE: machine_words.dfy ===
/** The fixed-width unsigned integers of the modelled code, as subsets of `int`. */
module MachineWords {

  const U8_LIMIT: int := 0x100
  const U16_LIMIT: int := 0x1_0000
  const U32_LIMIT: int := 0x1_0000_0000
  const U64_LIMIT: int := 0x1_0000_0000_0000_0000

  type u8 = x: int | 0 <= x < U8_LIMIT
  type u16 = x: int | 0 <= x < U16_LIMIT
  type u32 = x: int | 0 <= x < U32_LIMIT
  type u64 = x: int | 0 <= x < U64_LIMIT
}

=== FILE: reg_engine.dfy ===
/**
 * The generic VGIC register engine (`VgicRegEngine`), parameterised by an
 * attribute group, a chunk width and the group's attribute addressing.
 *
 * A register described by `(offset, size)` is moved as chunks: one primitive
 * call per chunk, at offsets `offset, offset + w, ...` below `offset + size`.
 * Getting a list of registers keeps their order; setting pairs descriptors with
 * values position by position. The first failing call ends the operation with
 * `DeviceAttribute(code, isWrite, group)`. Each operation is proved to make
 * exactly the calls of a flat trace, under `KvmDevice.RunTrace`.
 */
module RegEngine {
  import opened Wrappers
  import opened MachineWords
  import opened KvmDevice

  /** The errors of the interrupt-controller save/restore path. */
  datatype GicError =
    | DeviceAttribute(code: Errno, isWrite: bool, group: nat)
    | InconsistentVcpuCount

  datatype RegDesc = RegDesc(offset: u64, size: u16)

  /** A register descriptor (`SimpleReg`): its offset and width in bytes, inside the 64-bit space. */
  type SimpleReg = r: RegDesc | r.offset + r.size <= U64_LIMIT witness RegDesc(0, 0)

  /** One register's content as chunks (`GicRegState`). */
  datatype RegState = RegState(chunks: seq<bv64>)

  /** The width of one chunk in bytes: a `u32` or a `u64`. */
  type ChunkWidth = n: nat | n == 4 || n == 8 witness 4

  /** A register group: attribute group, chunk width, and `(offset, mpidr) -> attr`. */
  datatype Engine = Engine(group: nat, chunkBytes: ChunkWidth, attrOf: (bv64, bv64) -> bv64)

  /** A register list together with the group that reaches it (`dist_regs`, `redist_regs`, ...). */
  datatype RegTable = RegTable(engine: Engine, regs: seq<SimpleReg>)

  /** A register table reached through attribute group `group`. */
  predicate InGroup(t: RegTable, group: nat)
  {
    t.engine.group == group
  }

  /** The distributor's table (`dist_regs`): `KVM_DEV_ARM_VGIC_GRP_DIST_REGS`. */
  type DistTable = t: RegTable | InGroup(t, GrpDistRegs)
    witness RegTable(Engine(GrpDistRegs, 4, (offset, mpidr) => offset), [])

  /** The offsets `from, from + step, ...` below `to`: a stepped 64-bit range. */
  function Offsets(from: nat, to: int, step: ChunkWidth): seq<bv64>
    requires to <= U64_LIMIT
    decreases if from < to then to - from else 0
  {
    if from >= to then [] else [from as bv64] + Offsets(from + step, to, step)
  }

  /** The chunk offsets of one register. */
  function ChunkOffsets(e: Engine, reg: SimpleReg): seq<bv64>
  {
    Offsets(reg.offset, reg.offset + reg.size, e.chunkBytes)
  }

  /** The attribute one chunk is reached through. */
  function Key(e: Engine, offset: bv64, mpidr: bv64): AttrKey
  {
    AttrKey(e.group, e.attrOf(offset, mpidr))
  }

  /** How a failed primitive call is reported: its code, its direction, its group. */
  function AttrError(a: Access, code: Errno): GicError
  {
    DeviceAttribute(code, !a.Get?, a.key.group)
  }

  /** The store after an operation, and its result. */
  datatype Step<T> = Step(store: Store, res: Result<T, GicError>)

  /**
   * An operation behaves as the run of a flat trace: same store and log, it
   * fails exactly when the run does, and then with the failing call's error.
   */
  ghost predicate Mirrors<T>(st: Step<T>, run: Run)
  {
    && st.store == run.store
    && (st.res.Ok? <==> run.failure.None?)
    && (run.failure.Some? ==> st.res.Err? && st.res.error == AttrError(run.failure.value.0, run.failure.value.1))
  }

  /** The gets that read the chunks at `offs`. */
  function ChunkReads(e: Engine, offs: seq<bv64>, mpidr: bv64): (t: seq<Access>)
    ensures |t| == |offs|
    ensures forall i :: 0 <= i < |t| ==> t[i] == Get(Key(e, offs[i], mpidr))
  {
    seq(|offs|, i requires 0 <= i < |offs| => Get(Key(e, offs[i], mpidr)))
  }

  /** The gets that read `regs`, register by register. */
  function RegsReads(e: Engine, regs: seq<SimpleReg>, mpidr: bv64): (t: seq<Access>)
    ensures ReadOnly(t)
    ensures forall i :: 0 <= i < |t| ==> t[i].key.group == e.group
    decreases |regs|
  {
    if regs == [] then []
    else
      var head := ChunkReads(e, ChunkOffsets(e, regs[0]), mpidr);
      var tail := RegsReads(e, regs[1..], mpidr);
      assert forall i :: |head| <= i < |head + tail| ==> (head + tail)[i] == tail[i - |head|];
      head + tail
  }

  /** For a table whose every register is a single chunk, reading it is one get per register, in order. */
  lemma {:induction false} SingleChunkReads(e: Engine, regs: seq<SimpleReg>, mpidr: bv64)
    requires forall i :: 0 <= i < |regs| ==> |ChunkOffsets(e, regs[i])| == 1
    ensures |RegsReads(e, regs, mpidr)| == |regs|
    ensures forall i :: 0 <= i < |regs| ==> RegsReads(e, regs, mpidr)[i] == Get(Key(e, ChunkOffsets(e, regs[i])[0], mpidr))
    decreases |regs|
  {
    if regs != [] {
      var head := ChunkReads(e, ChunkOffsets(e, regs[0]), mpidr);
      var tail := RegsReads(e, regs[1..], mpidr);
      assert |ChunkOffsets(e, regs[0])| == 1;
      assert RegsReads(e, regs, mpidr) == head + tail;
      SingleChunkReads(e, regs[1..], mpidr);
      forall i | 1 <= i < |regs|
        ensures RegsReads(e, regs, mpidr)[i] == Get(Key(e, ChunkOffsets(e, regs[i])[0], mpidr))
      {
        assert regs[1..][i - 1] == regs[i];
        assert RegsReads(e, regs, mpidr)[i] == tail[i - 1];
      }
    }
  }

  /** The sets that write `vals` at `offs`, paired position by position. */
  function ChunkWrites(e: Engine, offs: seq<bv64>, vals: seq<bv64>, mpidr: bv64): (t: seq<Access>)
    ensures SetsIn(t, e.group)
    decreases |offs|
  {
    if offs == [] || vals == [] then []
    else
      var tail := ChunkWrites(e, offs[1..], vals[1..], mpidr);
      assert forall i :: 1 <= i < 1 + |tail| ==> ([Set(Key(e, offs[0], mpidr), vals[0])] + tail)[i] == tail[i - 1];
      [Set(Key(e, offs[0], mpidr), vals[0])] + tail
  }

  /** The sets that write `states` into `regs`, paired position by position. */
  function RegsWrites(e: Engine, regs: seq<SimpleReg>, states: seq<RegState>, mpidr: bv64): (t: seq<Access>)
    ensures SetsIn(t, e.group)
    decreases |regs|
  {
    if regs == [] || states == [] then []
    else
      var head := ChunkWrites(e, ChunkOffsets(e, regs[0]), states[0].chunks, mpidr);
      var tail := RegsWrites(e, regs[1..], states[1..], mpidr);
      assert forall i :: |head| <= i < |head + tail| ==> (head + tail)[i] == tail[i - |head|];
      head + tail
  }

  /** Every call of `t` is a set within attribute group `group`. */
  predicate SetsIn(t: seq<Access>, group: nat)
  {
    forall i :: 0 <= i < |t| ==> t[i].Set? && t[i].key.group == group
  }

  /** A run of sets within `group` logs nothing but such sets, whether it goes through or stops early. */
  lemma RunOfSetsLogsSets(s: Store, t: seq<Access>, group: nat)
    requires SetsIn(t, group)
    ensures var r := RunTrace(s, t);
      && |s.log| <= |r.store.log|
      && forall i :: |s.log| <= i < |r.store.log| ==> r.store.log[i].Set? && r.store.log[i].key.group == group
  {
    var r := RunTrace(s, t);
    var k := |r.store.log| - |s.log|;
    assert 0 <= k <= |t| && r.store.log == s.log + t[..k];
    forall i | |s.log| <= i < |r.store.log|
      ensures r.store.log[i].Set? && r.store.log[i].key.group == group
    {
      assert r.store.log[i] == t[i - |s.log|];
    }
  }

  /** The values the store holds behind the chunks at `offs`. */
  function ChunkValues(cells: map<AttrKey, Cell>, e: Engine, offs: seq<bv64>, mpidr: bv64): (vals: seq<bv64>)
    ensures |vals| == |offs|
    ensures forall j :: 0 <= j < |offs| ==> vals[j] == CellValue(cells, Key(e, offs[j], mpidr))
  {
    seq(|offs|, j requires 0 <= j < |offs| => CellValue(cells, Key(e, offs[j], mpidr)))
  }

  /** What the registers hold: for each register, the values behind its chunks. */
  function Snapshot(cells: map<AttrKey, Cell>, e: Engine, regs: seq<SimpleReg>, mpidr: bv64): (r: seq<RegState>)
    ensures |r| == |regs|
    ensures forall i :: 0 <= i < |regs| ==> r[i].chunks == ChunkValues(cells, e, ChunkOffsets(e, regs[i]), mpidr)
  {
    seq(|regs|, i requires 0 <= i < |regs| => RegState(ChunkValues(cells, e, ChunkOffsets(e, regs[i]), mpidr)))
  }

  /** The first chunk read, and the reads and values of the rest. */
  lemma ChunkReadsCons(cells: map<AttrKey, Cell>, e: Engine, offs: seq<bv64>, mpidr: bv64)
    requires offs != []
    ensures ChunkReads(e, offs, mpidr) == [Get(Key(e, offs[0], mpidr))] + ChunkReads(e, offs[1..], mpidr)
    ensures ChunkValues(cells, e, offs, mpidr) ==
      [CellValue(cells, Key(e, offs[0], mpidr))] + ChunkValues(cells, e, offs[1..], mpidr)
  {
    ChunkReadsSplit(e, offs, mpidr);
    ChunkValuesSplit(cells, e, offs, mpidr);
  }

  lemma ChunkReadsSplit(e: Engine, offs: seq<bv64>, mpidr: bv64)
    requires offs != []
    ensures ChunkReads(e, offs, mpidr) == [Get(Key(e, offs[0], mpidr))] + ChunkReads(e, offs[1..], mpidr)
  {
    var t := ChunkReads(e, offs, mpidr);
    var tail := ChunkReads(e, offs[1..], mpidr);
    assert t[0] == Get(Key(e, offs[0], mpidr));
    forall i | 1 <= i < |t| ensures t[i] == tail[i - 1] {
      assert offs[1..][i - 1] == offs[i];
    }
    assert t == [t[0]] + tail;
  }

  lemma ChunkValuesSplit(cells: map<AttrKey, Cell>, e: Engine, offs: seq<bv64>, mpidr: bv64)
    requires offs != []
    ensures ChunkValues(cells, e, offs, mpidr) ==
      [CellValue(cells, Key(e, offs[0], mpidr))] + ChunkValues(cells, e, offs[1..], mpidr)
  {
    var v := ChunkValues(cells, e, offs, mpidr);
    var tail := ChunkValues(cells, e, offs[1..], mpidr);
    assert v[0] == CellValue(cells, Key(e, offs[0], mpidr));
    forall i | 1 <= i < |v| ensures v[i] == tail[i - 1] {
      assert offs[1..][i - 1] == offs[i];
    }
    assert v == [v[0]] + tail;
  }

  lemma SnapshotCons(cells: map<AttrKey, Cell>, e: Engine, regs: seq<SimpleReg>, mpidr: bv64)
    requires regs != []
    ensures Snapshot(cells, e, regs, mpidr) ==
      [RegState(ChunkValues(cells, e, ChunkOffsets(e, regs[0]), mpidr))] + Snapshot(cells, e, regs[1..], mpidr)
  {
    var a := Snapshot(cells, e, regs, mpidr);
    var b := [RegState(ChunkValues(cells, e, ChunkOffsets(e, regs[0]), mpidr))] + Snapshot(cells, e, regs[1..], mpidr);
    assert forall i :: 0 <= i < |a| ==> a[i] == b[i];
  }

  /** Read the chunks at `offs` (the loop of `get_reg_data`). */
  function GetChunks(s: Store, e: Engine, offs: seq<bv64>, mpidr: bv64): (r: Step<seq<bv64>>)
    ensures Mirrors(r, RunTrace(s, ChunkReads(e, offs, mpidr)))
    ensures r.store.cells == s.cells
    ensures r.res.Ok? ==> r.res.value == ChunkValues(s.cells, e, offs, mpidr)
    decreases |offs|
  {
    if offs == [] then Step(s, Ok([]))
    else
      ChunkReadsCons(s.cells, e, offs, mpidr);
      var (s1, v) := GetAttr(s, Key(e, offs[0], mpidr));
      if v.Err? then Step(s1, Err(DeviceAttribute(v.error, false, e.group)))
      else
        var rest := GetChunks(s1, e, offs[1..], mpidr);
        if rest.res.Err? then rest else Step(rest.store, Ok([v.value] + rest.res.value))
  }

  /** Read one register (`get_reg_data`). */
  function GetReg(s: Store, e: Engine, reg: SimpleReg, mpidr: bv64): (r: Step<RegState>)
    ensures Mirrors(r, RunTrace(s, ChunkReads(e, ChunkOffsets(e, reg), mpidr)))
    ensures r.store.cells == s.cells
    ensures r.res.Ok? ==> r.res.value == RegState(ChunkValues(s.cells, e, ChunkOffsets(e, reg), mpidr))
  {
    var c := GetChunks(s, e, ChunkOffsets(e, reg), mpidr);
    if c.res.Err? then Step(c.store, Err(c.res.error)) else Step(c.store, Ok(RegState(c.res.value)))
  }

  /** Read a list of registers, in list order (`get_regs_data`). */
  function GetRegs(s: Store, e: Engine, regs: seq<SimpleReg>, mpidr: bv64): (r: Step<seq<RegState>>)
    ensures Mirrors(r, RunTrace(s, RegsReads(e, regs, mpidr)))
    ensures r.store.cells == s.cells
    ensures r.res.Ok? ==> r.res.value == Snapshot(s.cells, e, regs, mpidr)
    decreases |regs|
  {
    if regs == [] then Step(s, Ok([]))
    else
      RunTraceAppend(s, ChunkReads(e, ChunkOffsets(e, regs[0]), mpidr), RegsReads(e, regs[1..], mpidr));
      var head := GetReg(s, e, regs[0], mpidr);
      if head.res.Err? then Step(head.store, Err(head.res.error))
      else
        var rest := GetRegs(head.store, e, regs[1..], mpidr);
        if rest.res.Err? then Step(rest.store, Err(rest.res.error))
        else
          SnapshotCons(s.cells, e, regs, mpidr);
          Step(rest.store, Ok([head.res.value] + rest.res.value))
  }

  /** Write `vals` at `offs`, pairing them position by position (the loop of `set_reg_data`). */
  function SetChunks(s: Store, e: Engine, offs: seq<bv64>, vals: seq<bv64>, mpidr: bv64): (r: Step<()>)
    ensures Mirrors(r, RunTrace(s, ChunkWrites(e, offs, vals, mpidr)))
    decreases |offs|
  {
    if offs == [] || vals == [] then Step(s, Ok(()))
    else
      var t := ChunkWrites(e, offs, vals, mpidr);
      assert t[1..] == ChunkWrites(e, offs[1..], vals[1..], mpidr);
      var (s1, res) := SetAttr(s, Key(e, offs[0], mpidr), vals[0]);
      if res.Err? then Step(s1, Err(DeviceAttribute(res.error, true, e.group)))
      else SetChunks(s1, e, offs[1..], vals[1..], mpidr)
  }

  /** Write one register (`set_reg_data`). */
  function SetReg(s: Store, e: Engine, reg: SimpleReg, val: RegState, mpidr: bv64): (r: Step<()>)
    ensures Mirrors(r, RunTrace(s, ChunkWrites(e, ChunkOffsets(e, reg), val.chunks, mpidr)))
  {
    SetChunks(s, e, ChunkOffsets(e, reg), val.chunks, mpidr)
  }

  /** Write a list of registers, pairing descriptors with values position by position (`set_regs_data`). */
  function SetRegs(s: Store, e: Engine, regs: seq<SimpleReg>, vals: seq<RegState>, mpidr: bv64): (r: Step<()>)
    ensures Mirrors(r, RunTrace(s, RegsWrites(e, regs, vals, mpidr)))
    decreases |regs|
  {
    if regs == [] || vals == [] then Step(s, Ok(()))
    else
      RunTraceAppend(s, ChunkWrites(e, ChunkOffsets(e, regs[0]), vals[0].chunks, mpidr), RegsWrites(e, regs[1..], vals[1..], mpidr));
      var head := SetReg(s, e, regs[0], vals[0], mpidr);
      if head.res.Err? then head
      else SetRegs(head.store, e, regs[1..], vals[1..], mpidr)
  }

  /** Writing back the chunk values the store holds restores every chunk. */
  lemma {:induction false} ChunkWritesOfSnapshotRestore(cells: map<AttrKey, Cell>, e: Engine, offs: seq<bv64>, mpidr: bv64)
    requires AllUsable(cells, ChunkReads(e, offs, mpidr))
    ensures Restores(cells, ChunkWrites(e, offs, ChunkValues(cells, e, offs, mpidr), mpidr))
    decreases |offs|
  {
    var vals := ChunkValues(cells, e, offs, mpidr);
    if offs != [] {
      assert Usable(cells, ChunkReads(e, offs, mpidr)[0].key);
      assert AllUsable(cells, ChunkReads(e, offs[1..], mpidr)) by {
        forall i | 0 <= i < |offs| - 1 ensures Usable(cells, ChunkReads(e, offs[1..], mpidr)[i].key) {
          assert ChunkReads(e, offs, mpidr)[i + 1].key == Key(e, offs[1..][i], mpidr);
        }
      }
      ChunkWritesOfSnapshotRestore(cells, e, offs[1..], mpidr);
      assert vals[1..] == ChunkValues(cells, e, offs[1..], mpidr);
      RestoresJoin(cells, [Set(Key(e, offs[0], mpidr), vals[0])], ChunkWrites(e, offs[1..], vals[1..], mpidr));
    }
  }

  /** Writing back a snapshot of the registers restores them: every set re-stores the value it finds. */
  lemma {:induction false} WritesOfSnapshotRestore(cells: map<AttrKey, Cell>, e: Engine, regs: seq<SimpleReg>, mpidr: bv64)
    requires AllUsable(cells, RegsReads(e, regs, mpidr))
    ensures Restores(cells, RegsWrites(e, regs, Snapshot(cells, e, regs, mpidr), mpidr))
    decreases |regs|
  {
    if regs != [] {
      var head := ChunkReads(e, ChunkOffsets(e, regs[0]), mpidr);
      AllUsableSplit(cells, head, RegsReads(e, regs[1..], mpidr));
      ChunkWritesOfSnapshotRestore(cells, e, ChunkOffsets(e, regs[0]), mpidr);
      WritesOfSnapshotRestore(cells, e, regs[1..], mpidr);
      var snap := Snapshot(cells, e, regs, mpidr);
      assert snap[1..] == Snapshot(cells, e, regs[1..], mpidr);
      RestoresJoin(cells, ChunkWrites(e, ChunkOffsets(e, regs[0]), snap[0].chunks, mpidr),
        RegsWrites(e, regs[1..], snap[1..], mpidr));
    }
  }

  /**
   * The engine's round trip: setting the registers to what a successful get
   * returned succeeds and leaves every register as it was before the get.
   */
  lemma GetThenSetRestores(s: Store, e: Engine, regs: seq<SimpleReg>, mpidr: bv64)
    requires GetRegs(s, e, regs, mpidr).res.Ok?
    ensures SetRegs(GetRegs(s, e, regs, mpidr).store, e, regs, GetRegs(s, e, regs, mpidr).res.value, mpidr).res.Ok?
    ensures SetRegs(GetRegs(s, e, regs, mpidr).store, e, regs, GetRegs(s, e, regs, mpidr).res.value, mpidr).store.cells
      == s.cells
  {
    var g := GetRegs(s, e, regs, mpidr);
    RunReadOnly(s, RegsReads(e, regs, mpidr));
    WritesOfSnapshotRestore(s.cells, e, regs, mpidr);
    RunRestoring(g.store, RegsWrites(e, regs, g.res.value, mpidr));
  }
}

=== FILE: wrappers.dfy ===
/** Option and Result, the two failure-carrying shapes the model needs. */
module Wrappers {

  /** A value that may be absent. */
  datatype Option<+T> = None | Some(value: T)

  /** Either a success value or an error value. */
  datatype Result<+T, +E> = Ok(value: T) | Err(error: E)
}
